=== FILE: README.md ===
# GreenCyprus core in Dafny

A model of the logic behind the GreenCyprus Android app. The app estimates a
user's yearly CO2 footprint from a five-step questionnaire and turns it into a
number of trees to plant. Users buy trees from a shop using an in-app wallet,
and they see their trees on a map or in a list. In the app all of this runs
against a local mock network repository that keeps its data in the Android
preference store.

The model has one module per source component:

| file | module | models |
|---|---|---|
| `wrappers.dfy` | `Wrappers` | `Option` and `Result` |
| `decimal.dfy` | `Decimal` | how Kotlin string templates render an `Int` (`"$n"`) |
| `tree_model.dfy` | `TreeModel` | `BoughtTree`, `Tree`, `TreeStatus`, `StoreTree`, `UserProfile`, and `BoughtTree.mapToUiModel` |
| `data_store.dfy` | `DataStore` | `DataStoreRepository`: a typed key–value store with the defaults the getters apply |
| `carbon_footprint.dfy` | `CarbonFootprint` | `CarbonFootprintViewModel`: the footprint formula, step navigation, loading and saving of answers |
| `mock_network.dfy` | `MockNetwork` | `MockNetworkRepository`: `TreeType`, seeding of owned trees and of the catalogue, buying, deposits, the profile, the session |
| `profile.dfy` | `Profile` | `ProfileViewModel` and `ProfileUiState` |
| `plant_shop.dfy` | `PlantShop` | `PlantShopViewModel` |
| `your_impact.dfy` | `YourImpact` | `YourImpactViewModel` |
| `impact_screen.dfy` | `ImpactScreen` | the map-marker filter and `calculateTreeAgeLegacy` from `YourImpactScreen` |

Every repository or view-model operation is a pure function. It takes the
store (`map<Key, Value>`) and returns the new store along with its result.
The parts of the code that cannot be written as pure functions are passed in
as parameters:

- the random UUID, as `freshId`;
- the random choices made while seeding, as `choose` and `price`;
- the platform date parser, as `parse`;
- the current month, as `now`;
- the JVM's `Double` to `String` conversion, as `render`.

The ghost predicate `MockNetwork.LedgerInvariant` says what holds for every
store the app can reach:

- every value has its key's declared type;
- the balance is non-negative;
- the owned trees have ids "1", …, "n" in order;
- each owned tree has a date and coordinates exactly when it is planted.

A fresh installation satisfies it, and opening a session, seeding the owned trees and the catalogue, buying, deposits and the questionnaire's writes all preserve it; every screen's load changes the store only by opening a session.

The footprint formula is stated once over reals, as the source writes it
(`ExactTotal`). It is computed in integer tenths. `EstimateFootprint` proves
that the integer computation equals the real formula truncated toward zero,
which is what Kotlin's `toInt` does.

## Model

| member | source | states |
|---|---|---|
| TreeModel.StatusFromWire | app/src/main/java/com/awesome/greencyprushackathon/features/your_impact/model/Tree.kt:3-6 | the wire status maps to Planted exactly when it is the string "Planted" |
| TreeModel.MapToUiModel | app/src/main/java/com/awesome/greencyprushackathon/network/model/BoughtTree.kt:18-29 | every field is copied unchanged; the status becomes Planted iff the stored string is "Planted", otherwise ReadyToBePlanted |
| TreeModel.StatusRoundTrip | app/src/main/java/com/awesome/greencyprushackathon/network/model/BoughtTree.kt:28 | converting a record carrying a status's own string yields that status back |
| DataStore.Lookup | app/src/main/java/com/awesome/greencyprushackathon/features/carbon_footprint/domain/DataStoreRepository.kt:46-71 | a key has a value exactly when it is present in the preferences, and that value is the stored one |
| DataStore.GetInt | app/src/main/java/com/awesome/greencyprushackathon/features/carbon_footprint/domain/DataStoreRepository.kt:46-68 | an integer preference reads back as its stored value, or absent |
| DataStore.GetBool | app/src/main/java/com/awesome/greencyprushackathon/features/carbon_footprint/domain/DataStoreRepository.kt:70-71 | the recycling flag reads back as stored, or absent |
| DataStore.GetString | app/src/main/java/com/awesome/greencyprushackathon/features/carbon_footprint/domain/DataStoreRepository.kt:133-135 | a string preference reads back as stored, or absent |
| DataStore.GetWalletBalance | app/src/main/java/com/awesome/greencyprushackathon/features/carbon_footprint/domain/DataStoreRepository.kt:150-153 | the balance is the stored one, 1000.0 when none is stored |
| DataStore.GetBoughtTrees | app/src/main/java/com/awesome/greencyprushackathon/features/carbon_footprint/domain/DataStoreRepository.kt:166-174 | the owned-tree list is the saved one, empty when none is stored |
| DataStore.GetStoreTrees | app/src/main/java/com/awesome/greencyprushackathon/features/carbon_footprint/domain/DataStoreRepository.kt:185-193 | the catalogue is the saved one, empty when none is stored |
| DataStore.GetUserId | app/src/main/java/com/awesome/greencyprushackathon/features/carbon_footprint/domain/DataStoreRepository.kt:137-140 | the stored id, otherwise the freshly generated one (which is not saved) |
| DataStore.SaveInt | app/src/main/java/com/awesome/greencyprushackathon/features/carbon_footprint/domain/DataStoreRepository.kt:73-119 | the saved value reads back; every other key is unchanged; the store stays well-typed |
| DataStore.SaveBool | app/src/main/java/com/awesome/greencyprushackathon/features/carbon_footprint/domain/DataStoreRepository.kt:121-125 | the saved flag reads back; every other key is unchanged |
| DataStore.SaveString | app/src/main/java/com/awesome/greencyprushackathon/features/carbon_footprint/domain/DataStoreRepository.kt:127-131 | the saved session reads back; every other key is unchanged |
| DataStore.SaveWalletBalance | app/src/main/java/com/awesome/greencyprushackathon/features/carbon_footprint/domain/DataStoreRepository.kt:143-147 | the saved balance reads back; every other key is unchanged |
| DataStore.SaveBoughtTrees | app/src/main/java/com/awesome/greencyprushackathon/features/carbon_footprint/domain/DataStoreRepository.kt:158-163 | the saved list reads back element for element; every other key is unchanged |
| DataStore.SaveStoreTrees | app/src/main/java/com/awesome/greencyprushackathon/features/carbon_footprint/domain/DataStoreRepository.kt:177-182 | the saved catalogue reads back; every other key is unchanged |
| DataStore.EmptyStoreDefaults | app/src/main/java/com/awesome/greencyprushackathon/features/carbon_footprint/domain/DataStoreRepository.kt:137-193 | a fresh store has a balance of 1000.0, no trees, no catalogue, no questionnaire values (no numbers and no recycling answer), and a generated user id |
| DataStore.SameExceptTrans | app/src/main/java/com/awesome/greencyprushackathon/features/carbon_footprint/domain/DataStoreRepository.kt:73-182 | two successive writes change nothing outside the union of the keys they write |
| CarbonFootprint.EstimateFootprint | app/src/main/java/com/awesome/greencyprushackathon/features/carbon_footprint/presentation/CarbonFootprintViewModel.kt:89-106 | the footprint is the exact weighted sum (times 0.8 when recycling) truncated toward zero; the trees needed is that sum divided by 20, truncated |
| CarbonFootprint.ZeroInputsGiveZero | app/src/main/java/com/awesome/greencyprushackathon/features/carbon_footprint/presentation/CarbonFootprintViewModel.kt:89-106 | all-zero answers give a footprint of 0 and 0 trees |
| CarbonFootprint.WorkedExample | app/src/main/java/com/awesome/greencyprushackathon/features/carbon_footprint/presentation/CarbonFootprintViewModel.kt:89-106 | 100 km/week, 200 kWh/month, 7 meals, 1 short flight, 2 clothing items gives 5440 kg and 272 trees |
| CarbonFootprint.EstimateMonotone | app/src/main/java/com/awesome/greencyprushackathon/features/carbon_footprint/presentation/CarbonFootprintViewModel.kt:89-106 | raising any answer (same recycling choice) never lowers the footprint or the trees needed |
| CarbonFootprint.RecyclingNeverIncreases | app/src/main/java/com/awesome/greencyprushackathon/features/carbon_footprint/presentation/CarbonFootprintViewModel.kt:99-102 | for non-negative answers, recycling never raises the footprint or the trees needed |
| CarbonFootprint.TreesFromFootprint | app/src/main/java/com/awesome/greencyprushackathon/features/carbon_footprint/presentation/CarbonFootprintViewModel.kt:104-106 | the trees needed equals the integer footprint divided by 20, truncated |
| CarbonFootprint.NoOverflowWithinSliderRanges | app/src/main/java/com/awesome/greencyprushackathon/features/carbon_footprint/presentation/components/Steps.kt:36-214 | with every answer inside its slider range each integer product fits in a 32-bit Int and the total lies in 0..81660 |
| CarbonFootprint.InitialStep | app/src/main/java/com/awesome/greencyprushackathon/features/carbon_footprint/presentation/CarbonFootprintViewModel.kt:57-62 | the questionnaire opens on the summary step 5 exactly when both results are stored, otherwise on step 1 |
| CarbonFootprint.Open | app/src/main/java/com/awesome/greencyprushackathon/features/carbon_footprint/presentation/CarbonFootprintViewModel.kt:56-74 | the opening step is the one the stored results decide (1 or 5); the answers and both results are the stored ones, each defaulting to 0 or false; on an empty store the step is 1 |
| CarbonFootprint.SaveInputs | app/src/main/java/com/awesome/greencyprushackathon/features/carbon_footprint/presentation/CarbonFootprintViewModel.kt:137-143 | the seven answers read back as saved; no other key changes |
| CarbonFootprint.SaveQuestionnaireResults | app/src/main/java/com/awesome/greencyprushackathon/features/carbon_footprint/presentation/CarbonFootprintViewModel.kt:122-146 | both results and all seven answers read back as saved; no key outside the questionnaire's changes |
| CarbonFootprint.Calculate | app/src/main/java/com/awesome/greencyprushackathon/features/carbon_footprint/presentation/CarbonFootprintViewModel.kt:88-119 | the screen shows the exact-formula footprint and trees needed, and the store then holds those results and the answers |
| CarbonFootprint.NextStep | app/src/main/java/com/awesome/greencyprushackathon/features/carbon_footprint/presentation/CarbonFootprintViewModel.kt:78-81 | below step 5 the step advances by one, otherwise it stays; whenever the result is step 5 the estimate is recalculated and saved, otherwise nothing is saved |
| CarbonFootprint.PreviousStep | app/src/main/java/com/awesome/greencyprushackathon/features/carbon_footprint/presentation/CarbonFootprintViewModel.kt:83-85 | above step 1 the step goes back by one, otherwise nothing changes; only the step changes |
| CarbonFootprint.ReopenAfterCalculation | app/src/main/java/com/awesome/greencyprushackathon/features/carbon_footprint/presentation/CarbonFootprintViewModel.kt:56-74 | reopening the questionnaire from the store a calculation wrote restores exactly the screen it showed |
| CarbonFootprint.NextStepAtLastRecomputes | app/src/main/java/com/awesome/greencyprushackathon/features/carbon_footprint/presentation/CarbonFootprintViewModel.kt:78-81 | at step 5, next stays on step 5 and recomputes; doing it again changes nothing |
| Decimal.ParseNatToString | app/src/main/java/com/awesome/greencyprushackathon/network/MockNetworkRepository.kt:195 | a tree id rendered as decimal text reads back as the same number |
| Decimal.NatToStringInjective | app/src/main/java/com/awesome/greencyprushackathon/network/MockNetworkRepository.kt:195 | different sequence numbers give different id strings |
| Decimal.NatToStringLeadsWithDigit | app/src/main/java/com/awesome/greencyprushackathon/network/MockNetworkRepository.kt:122 | a rendered number is non-empty and starts with a digit |
| MockNetwork.EnsureSession | app/src/main/java/com/awesome/greencyprushackathon/network/MockNetworkRepository.kt:243-248 | a stored session is kept; with none, "local-session-123" is stored; nothing else changes |
| MockNetwork.Message | app/src/main/java/com/awesome/greencyprushackathon/network/MockNetworkRepository.kt:179-183 | the message is "Invalid tree type" exactly for an unknown type; an insufficient balance is reported as "You have insufficient balance to purchase a <TYPE> tree. Current balance: …" |
| MockNetwork.FindPrice | app/src/main/java/com/awesome/greencyprushackathon/network/MockNetworkRepository.kt:178 | no price exactly when no offer has the type's name; otherwise the price of an offer with that name |
| MockNetwork.BuyTree | app/src/main/java/com/awesome/greencyprushackathon/network/MockNetworkRepository.kt:176-212 | unknown type and too-low balance fail with their errors and leave exactly the store the session step leaves; success iff priced and affordable, then the balance drops by the price and stays non-negative, and one unplanted record numbered size+1 is appended and its id returned |
| MockNetwork.AddMoneyToWallet | app/src/main/java/com/awesome/greencyprushackathon/network/MockNetworkRepository.kt:214-225 | the balance rises by the amount, the profile reports the new balance and the unchanged tree count, and the store is the session step's store with the new balance saved |
| MockNetwork.GetUserProfile | app/src/main/java/com/awesome/greencyprushackathon/network/MockNetworkRepository.kt:233-241 | the profile reports the stored balance, the number of owned trees and the user id; the store is the session step's store |
| MockNetwork.ListBoughtTrees | app/src/main/java/com/awesome/greencyprushackathon/network/MockNetworkRepository.kt:170-173 | returns exactly the stored owned trees; the store is the session step's store |
| MockNetwork.ListStoreTrees | app/src/main/java/com/awesome/greencyprushackathon/network/MockNetworkRepository.kt:228-231 | returns exactly the stored catalogue; the store is the session step's store |
| MockNetwork.GenerateBoughtTree | app/src/main/java/com/awesome/greencyprushackathon/network/MockNetworkRepository.kt:104-132 | the id is the number in decimal; type name, title and description are the type's; a planted tree has date, coordinates offset from its base point and the planted photo; any other tree has none and the store photo |
| MockNetwork.InitializeBoughtTrees | app/src/main/java/com/awesome/greencyprushackathon/network/MockNetworkRepository.kt:135-148 | a non-empty list is left alone; an empty one becomes 60 trees, twenty per base point in order, numbered "1".."60", each located exactly when planted; the ledger invariant holds afterwards |
| MockNetwork.GenerateSeededTrees | app/src/main/java/com/awesome/greencyprushackathon/network/MockNetworkRepository.kt:138-145 | the outer loop produces 3 x 20 trees, tree i being the i-th seeded tree |
| MockNetwork.GenerateAroundBasePoint | app/src/main/java/com/awesome/greencyprushackathon/network/MockNetworkRepository.kt:141-144 | the inner loop appends the twenty trees of one base point with running numbers |
| MockNetwork.AppendGenerated | app/src/main/java/com/awesome/greencyprushackathon/network/MockNetworkRepository.kt:142-143 | one repetition appends tree number 20·b + j + 1, generated around base point b, after the trees already generated |
| MockNetwork.Offers | app/src/main/java/com/awesome/greencyprushackathon/network/MockNetworkRepository.kt:154-164 | offer i is the i-th tree type's offer at its drawn price, with the type's name as title and type, its description and its store photo |
| MockNetwork.InitializeStoreTrees | app/src/main/java/com/awesome/greencyprushackathon/network/MockNetworkRepository.kt:151-167 | a non-empty catalogue is left alone; an empty one becomes exactly the five offers built from the types in declaration order, and every type is then priced at its drawn price |
| MockNetwork.OffersPriceEveryType | app/src/main/java/com/awesome/greencyprushackathon/network/MockNetworkRepository.kt:154-164 | in the generated catalogue every listed type is found at its own price |
| MockNetwork.EntriesComplete | app/src/main/java/com/awesome/greencyprushackathon/network/MockNetworkRepository.kt:22-52 | the entries list contains every tree type |
| MockNetwork.NamesDiffer | app/src/main/java/com/awesome/greencyprushackathon/network/MockNetworkRepository.kt:22-52 | distinct tree types have distinct names |
| MockNetwork.OakDescriptionAsWritten | app/src/main/java/com/awesome/greencyprushackathon/network/MockNetworkRepository.kt:27-31 | the oak's description is "Absorbs approximately 10 kg of CO₂ per year"; the other types differ only in the figure (8, 6, 7, 5) |
| MockNetwork.BuyTreePreservesInvariant | app/src/main/java/com/awesome/greencyprushackathon/network/MockNetworkRepository.kt:176-212 | a purchase keeps the ledger invariant: non-negative balance, ids 1..n in order, located exactly when planted |
| MockNetwork.AddMoneyPreservesInvariant | app/src/main/java/com/awesome/greencyprushackathon/network/MockNetworkRepository.kt:214-225 | a non-negative deposit keeps the ledger invariant |
| MockNetwork.EnsureSessionPreservesInvariant | app/src/main/java/com/awesome/greencyprushackathon/network/MockNetworkRepository.kt:243-248 | opening a session (done by every repository call) keeps the ledger invariant |
| MockNetwork.EmptyStoreSatisfiesInvariant | app/src/main/java/com/awesome/greencyprushackathon/features/carbon_footprint/domain/DataStoreRepository.kt:137-193 | a fresh installation already satisfies the ledger invariant, the base case for every reachable store |
| MockNetwork.InitializeStoreTreesPreservesInvariant | app/src/main/java/com/awesome/greencyprushackathon/network/MockNetworkRepository.kt:151-167 | seeding the catalogue keeps the ledger invariant |
| CarbonFootprint.CalculateKeepsLedgerInvariant | app/src/main/java/com/awesome/greencyprushackathon/features/carbon_footprint/presentation/CarbonFootprintViewModel.kt:109-146 | saving the questionnaire's results and answers keeps the ledger invariant |
| MockNetwork.SequentialIdsAreUnique | app/src/main/java/com/awesome/greencyprushackathon/network/MockNetworkRepository.kt:195 | with ids numbered in order, no two owned trees share an id |
| MockNetwork.SeededCatalogueKnowsEveryType | app/src/main/java/com/awesome/greencyprushackathon/network/MockNetworkRepository.kt:151-179 | after the catalogue is seeded, no purchase fails with "Invalid tree type" |
| Profile.LoadProfileData | app/src/main/java/com/awesome/greencyprushackathon/features/profile/presentation/ProfileViewModel.kt:25-38 | shows the owned-tree count and balance from the profile and the stored trees-needed (0 when absent) |
| Profile.DepositMoney | app/src/main/java/com/awesome/greencyprushackathon/features/profile/presentation/ProfileViewModel.kt:40-48 | a non-positive amount changes nothing; otherwise the store is the session step's store with the raised balance saved, the balance rises by the amount, the screen shows the new stored balance, and the counts stay |
| Profile.DepositKeepsLedgerInvariant | app/src/main/java/com/awesome/greencyprushackathon/features/profile/presentation/ProfileViewModel.kt:40-48 | no deposit from the profile screen can break the ledger invariant or make the balance negative |
| Profile.ReloadAfterDepositAgrees | app/src/main/java/com/awesome/greencyprushackathon/features/profile/presentation/ProfileViewModel.kt:25-48 | after a deposit, reloading the profile shows the same balance the deposit showed |
| PlantShop.ValueOf | app/src/main/java/com/awesome/greencyprushackathon/features/plant_shop/presentation/PlantShopViewModel.kt:40 | finds the tree type whose name is exactly the given string, and none when no type has that name |
| PlantShop.ValueOfName | app/src/main/java/com/awesome/greencyprushackathon/features/plant_shop/presentation/PlantShopViewModel.kt:40 | every tree type is found under its own name |
| PlantShop.UnknownTypeMessage | app/src/main/java/com/awesome/greencyprushackathon/features/plant_shop/presentation/PlantShopViewModel.kt:40 | the failure text of `valueOf` starts with "No enum constant " and ends with the unknown name |
| PlantShop.LoadStoreTrees | app/src/main/java/com/awesome/greencyprushackathon/features/plant_shop/presentation/PlantShopViewModel.kt:30-35 | the shown offers are exactly the repository's; the store is the session step's store |
| PlantShop.Open | app/src/main/java/com/awesome/greencyprushackathon/features/plant_shop/presentation/PlantShopViewModel.kt:20-28 | on creation no notification is shown, the offers are loaded, and the store changes only by the session step |
| PlantShop.BuyTree | app/src/main/java/com/awesome/greencyprushackathon/features/plant_shop/presentation/PlantShopViewModel.kt:37-46 | the notification announces success iff one tree was added, naming the new id and with the balance debited by the price; otherwise it is "Error: " followed by the repository's exception message (or `valueOf`'s message for an unknown name), and wallet and trees are unchanged; an unknown name changes nothing |
| PlantShop.ClearNotification | app/src/main/java/com/awesome/greencyprushackathon/features/plant_shop/presentation/PlantShopViewModel.kt:48-50 | removes the notification and keeps the offers |
| PlantShop.ClearNotificationIdempotent | app/src/main/java/com/awesome/greencyprushackathon/features/plant_shop/presentation/PlantShopViewModel.kt:48-50 | clearing twice is clearing once |
| YourImpact.LoadTrees | app/src/main/java/com/awesome/greencyprushackathon/features/your_impact/presentation/YourImpactViewModel.kt:25-30 | the shown trees are the owned records converted one by one, in order; the mode is kept; the store is the session step's store |
| YourImpact.ToggleMode | app/src/main/java/com/awesome/greencyprushackathon/features/your_impact/presentation/YourImpactViewModel.kt:32-34 | flips the mode and keeps the trees |
| YourImpact.SetMapMode | app/src/main/java/com/awesome/greencyprushackathon/features/your_impact/presentation/YourImpactViewModel.kt:36-38 | sets the mode and keeps the trees |
| YourImpact.ToggleTwiceRestores | app/src/main/java/com/awesome/greencyprushackathon/features/your_impact/presentation/YourImpactViewModel.kt:32-34 | toggling twice gives back the original state |
| YourImpact.SetMapModeIdempotent | app/src/main/java/com/awesome/greencyprushackathon/features/your_impact/presentation/YourImpactViewModel.kt:36-38 | setting the same mode twice is setting it once |
| YourImpact.ToggleIsSetToOther | app/src/main/java/com/awesome/greencyprushackathon/features/your_impact/presentation/YourImpactViewModel.kt:32-38 | toggling equals selecting the other mode |
| ImpactScreen.Markers | app/src/main/java/com/awesome/greencyprushackathon/features/your_impact/presentation/YourImpactScreen.kt:96 | a tree gets a marker exactly when it is in the list and has both coordinates |
| ImpactScreen.MarkersAppend | app/src/main/java/com/awesome/greencyprushackathon/features/your_impact/presentation/YourImpactScreen.kt:96 | the filter keeps list order: filtering a concatenation concatenates the filtered parts |
| ImpactScreen.MapShowsExactlyPlanted | app/src/main/java/com/awesome/greencyprushackathon/features/your_impact/presentation/YourImpactScreen.kt:96 | for a store in the ledger invariant, the loaded trees with a marker are exactly the planted ones |
| ImpactScreen.Render | app/src/main/java/com/awesome/greencyprushackathon/features/your_impact/presentation/YourImpactScreen.kt:215-218 | no age text can be mistaken for "Unknown age" |
| ImpactScreen.LegacyAge | app/src/main/java/com/awesome/greencyprushackathon/features/your_impact/presentation/YourImpactScreen.kt:212-218 | a positive year difference is shown as that many years plus the month difference only when positive; otherwise a positive month difference is shown as months; otherwise less than a month |
| ImpactScreen.TreeAgeLegacy | app/src/main/java/com/awesome/greencyprushackathon/features/your_impact/presentation/YourImpactScreen.kt:204-222 | "Unknown age" exactly when the date is absent or does not parse; otherwise the text of the year and month differences |
| ImpactScreen.CorrectedAge | app/src/main/java/com/awesome/greencyprushackathon/features/your_impact/presentation/YourImpactScreen.kt:210-217 | whole years and remaining months (under 12) adding up to the elapsed months; less than a month iff none elapsed |
| ImpactScreen.TreeAge | app/src/main/java/com/awesome/greencyprushackathon/features/your_impact/presentation/YourImpactScreen.kt:204-222 | "Unknown age" exactly when the date is absent or does not parse; otherwise the text of the corrected age |
| ImpactScreen.LegacyAgeAgreesUnlessMonthWraps | app/src/main/java/com/awesome/greencyprushackathon/features/your_impact/presentation/YourImpactScreen.kt:210-217 | for a planting month not in the future, the legacy age is right iff the current month is not earlier in the year than the planting month of an earlier year |
| ImpactScreen.LegacyTurnOfYear | app/src/main/java/com/awesome/greencyprushackathon/features/your_impact/presentation/YourImpactScreen.kt:210-217 | planted December 2023 and viewed January 2024, the legacy text shows "1 years" where "1 months" have passed |

## Left out

- Compose UI, navigation, `MainActivity`, the Hilt wiring and the remote HTTP repository: these are not logic of the core. The app's `@LocalNetworkRepository` binding selects the mock repository, and that is the only repository modelled.
- Gson serialisation of the tree lists: the store holds the lists directly. This assumes the JSON encoding round-trips, which the app relies on as well.
- Coroutines and flows: each operation is modelled as running to completion, one at a time. Interleavings of the two `init` coroutines, and the `combine` flow re-emitting on later writes, are not modelled.
- The questionnaire's step before the store first emits is `-1`. The model opens on the step the stored results decide, as the `combine` block sets it.
- IEEE doubles: amounts, prices and coordinates are reals. The footprint is computed exactly from the real constants 0.2 and 0.45. The `Double` arithmetic of the source can land one unit lower on an exact integer boundary, and NaN or infinite amounts do not exist in the model.
- `BuyTree`, `AddMoneyToWallet`: a balance that goes negative through an unchecked deposit would behave as the reals do, not as doubles do.
- Random generation: the coordinate offsets, planting dates, `isPlanted`/type draws and prices rounded to cents are oracle parameters. Their ranges are not constrained: as written, the date goes back twelve months and then forward 0–359 days; the offset adds a distance in kilometres divided by the Earth's radius directly to degrees, so at most about 0.016° of latitude and slightly more of longitude; prices are drawn from 3 to 25.
- `GetUserId`: the source returns a new random UUID on each call while no id is stored, and never saves it. The model does the same, with the caller-supplied `freshId`.
- The JVM's printing of a `Double` in the insufficient-balance message (`$currentBalance`, `$treePrice`) is the `render` parameter of `MockNetwork.Message`.
- `TreeAgeLegacy`: `SimpleDateFormat` parsing, leniency and the default locale are the `parse` parameter; the calendar's time zone is folded into `now`.
- The marker's title, snippet and colour, the camera, and the image loading on the impact screen are rendering only.

## Findings

| source | as written | input that shows it | evidently intended | confidence | as-written member | corrected member |
|---|---|---|---|---|---|---|
| app/src/main/java/com/awesome/greencyprushackathon/features/your_impact/presentation/YourImpactScreen.kt:210-217 | years and months are subtracted separately, and a non-positive month difference is dropped | planted 2023-12-15, viewed in January 2024: shows "1 years" | the whole years and remaining months elapsed, "1 months" | medium, not executed | ImpactScreen.LegacyTurnOfYear | ImpactScreen.CorrectedAge |

`ImpactScreen.LegacyAgeAgreesUnlessMonthWraps` characterises the error
exactly. For any planting month that is not in the future, the legacy text
is right if and only if the current month does not fall earlier in the year
than the planting month of an earlier year. In those cases it overstates the
age by up to eleven months. `ImpactScreen.CorrectedAge` counts whole elapsed
months, and it is proved to split them into years and months under twelve.

=== FILE: carbon_footprint.dfy ===
/** The carbon-footprint questionnaire: a fixed linear formula that turns seven
    lifestyle answers into an annual CO2 estimate and a tree count, and a step
    counter that walks the questionnaire and runs the estimate on its last step.
    The formula is computed exactly, over integers scaled by ten, and proved
    equal to the same formula over reals truncated as Kotlin's `toInt` does. */
module CarbonFootprint {
  import opened Wrappers
  import opened DataStore
  import MockNetwork

  // Emission factors, in kg of CO2 per unit.
  const CarEmissionsPerKm: real := 0.2
  const ElectricityEmissionsPerKwh: real := 0.45
  const MeatMealEmissions: int := 5
  const ShortHaulFlightEmissions: int := 300
  const LongHaulFlightEmissions: int := 1000
  const ClothingItemEmissions: int := 50
  /** kg of CO2 one tree absorbs per year. */
  const Co2AbsorptionPerTree: int := 20
  /** A household that recycles emits 20% less. */
  const RecyclingFactor: real := 0.8

  const FirstStep: int := 1
  /** The results step; reaching it runs the estimate. */
  const FinalStep: int := 5

  /** The questionnaire's answers, as the screen's integer and boolean states. */
  datatype Inputs = Inputs(
    weeklyKilometersDriven: int,
    monthlyElectricityUsage: int,
    weeklyMeatMeals: int,
    shortHaulFlightsPerYear: int,
    longHaulFlightsPerYear: int,
    newClothingItemsPerMonth: int,
    recyclesWaste: bool)

  datatype Estimate = Estimate(carbonFootprint: int, treesNeeded: int)

  predicate NonNegative(i: Inputs)
  {
    && i.weeklyKilometersDriven >= 0 && i.monthlyElectricityUsage >= 0 && i.weeklyMeatMeals >= 0
    && i.shortHaulFlightsPerYear >= 0 && i.longHaulFlightsPerYear >= 0 && i.newClothingItemsPerMonth >= 0
  }

  /** The ranges of the questionnaire's sliders. */
  predicate WithinSliderRanges(i: Inputs)
  {
    && 0 <= i.weeklyKilometersDriven <= 2000
    && 0 <= i.monthlyElectricityUsage <= 1000
    && 0 <= i.weeklyMeatMeals <= 21
    && 0 <= i.shortHaulFlightsPerYear <= 40
    && 0 <= i.longHaulFlightsPerYear <= 20
    && 0 <= i.newClothingItemsPerMonth <= 30
  }

  /** The annual emissions before truncation, over reals: the reference formula. */
  function ExactTotal(i: Inputs): real
  {
    var transportation := i.weeklyKilometersDriven as real * CarEmissionsPerKm * 52.0;
    var electricity := i.monthlyElectricityUsage as real * ElectricityEmissionsPerKwh * 12.0;
    var diet := (i.weeklyMeatMeals * MeatMealEmissions * 52) as real;
    var flights := (i.shortHaulFlightsPerYear * ShortHaulFlightEmissions
                    + i.longHaulFlightsPerYear * LongHaulFlightEmissions) as real;
    var clothing := (i.newClothingItemsPerMonth * ClothingItemEmissions * 12) as real;
    var total := transportation + electricity + diet + flights + clothing;
    if i.recyclesWaste then total * RecyclingFactor else total
  }

  /** Kotlin's `Double.toInt()` on an in-range value: truncation toward zero. */
  function TruncateReal(r: real): int
  {
    if r >= 0.0 then r.Floor else -((-r).Floor)
  }

  /** Integer division truncating toward zero. */
  function TruncateDiv(a: int, d: int): int
    requires d > 0
  {
    if a >= 0 then a / d else -((-a) / d)
  }

  /** Ten times the unreduced annual total, an exact integer. */
  function TotalTenths(i: Inputs): int
  {
    104 * i.weeklyKilometersDriven + 54 * i.monthlyElectricityUsage + 2600 * i.weeklyMeatMeals
    + 3000 * i.shortHaulFlightsPerYear + 10000 * i.longHaulFlightsPerYear + 6000 * i.newClothingItemsPerMonth
  }

  /** The footprint and the trees needed to absorb it, both truncated from the
      fractional (possibly reduced) total. */
  function EstimateFootprint(i: Inputs): (e: Estimate)
    ensures e.carbonFootprint == TruncateReal(ExactTotal(i))
    ensures e.treesNeeded == TruncateReal(ExactTotal(i) / Co2AbsorptionPerTree as real)
  {
    var t := TotalTenths(i);
    ExactTotalScaled(i);
    if i.recyclesWaste then
      TruncatedQuotient(8 * t, 100);
      TruncatedQuotient(8 * t, 2000);
      assert ExactTotal(i) / 20.0 == (8 * t) as real / 2000.0;
      Estimate(TruncateDiv(8 * t, 100), TruncateDiv(8 * t, 2000))
    else
      TruncatedQuotient(t, 10);
      TruncatedQuotient(t, 200);
      assert ExactTotal(i) / 20.0 == t as real / 200.0;
      Estimate(TruncateDiv(t, 10), TruncateDiv(t, 200))
  }

  /** The real total is the scaled integer total divided back. */
  lemma ExactTotalScaled(i: Inputs)
    ensures !i.recyclesWaste ==> ExactTotal(i) == TotalTenths(i) as real / 10.0
    ensures i.recyclesWaste ==> ExactTotal(i) == (8 * TotalTenths(i)) as real / 100.0
  {
  }

  /** Truncating a real quotient of integers is truncating integer division. */
  lemma TruncatedQuotient(a: int, d: int)
    requires d > 0
    ensures TruncateReal(a as real / d as real) == TruncateDiv(a, d)
  {
    if a >= 0 {
      FloorOfQuotient(a, d);
    } else {
      FloorOfQuotient(-a, d);
      assert -(a as real / d as real) == (-a) as real / d as real;
    }
  }

  lemma FloorOfQuotient(a: nat, d: int)
    requires d > 0
    ensures a as real / d as real >= 0.0
    ensures (a as real / d as real).Floor == a / d
  {
    var q, r := a / d, a % d;
    assert a == q * d + r && 0 <= r < d;
    assert a as real / d as real == q as real + r as real / d as real;
    assert 0.0 <= r as real / d as real < 1.0;
  }

  // ----- properties of the estimate

  /** No answers and no recycling: nothing emitted, no trees needed. */
  lemma ZeroInputsGiveZero()
    ensures EstimateFootprint(Inputs(0, 0, 0, 0, 0, 0, false)) == Estimate(0, 0)
  {
  }

  /** 100 km a week, 200 kWh a month, 7 meat meals, one short flight and two
      clothing items a month, no recycling: 1040 + 1080 + 1820 + 300 + 1200 kg. */
  lemma WorkedExample()
    ensures EstimateFootprint(Inputs(100, 200, 7, 1, 0, 2, false)) == Estimate(5440, 272)
  {
  }

  /** `a` answers no more than `b` in every field, with the same recycling answer. */
  predicate FieldwiseAtMost(a: Inputs, b: Inputs)
  {
    && a.weeklyKilometersDriven <= b.weeklyKilometersDriven
    && a.monthlyElectricityUsage <= b.monthlyElectricityUsage
    && a.weeklyMeatMeals <= b.weeklyMeatMeals
    && a.shortHaulFlightsPerYear <= b.shortHaulFlightsPerYear
    && a.longHaulFlightsPerYear <= b.longHaulFlightsPerYear
    && a.newClothingItemsPerMonth <= b.newClothingItemsPerMonth
    && a.recyclesWaste == b.recyclesWaste
  }

  /** More driving, electricity, meat, flights or clothing never lowers the
      footprint or the tree count. */
  lemma EstimateMonotone(a: Inputs, b: Inputs)
    requires FieldwiseAtMost(a, b)
    ensures EstimateFootprint(a).carbonFootprint <= EstimateFootprint(b).carbonFootprint
    ensures EstimateFootprint(a).treesNeeded <= EstimateFootprint(b).treesNeeded
  {
    var x, y := TotalTenths(a), TotalTenths(b);
    assert x <= y;
    EstimateFromTenths(a);
    EstimateFromTenths(b);
    if a.recyclesWaste {
      assert 8 * x <= 8 * y;
      assert TruncateDiv(8 * x, 100) <= TruncateDiv(8 * y, 100);
      assert TruncateDiv(8 * x, 2000) <= TruncateDiv(8 * y, 2000);
    } else {
      assert TruncateDiv(x, 10) <= TruncateDiv(y, 10);
      assert TruncateDiv(x, 200) <= TruncateDiv(y, 200);
    }
  }

  /** The estimate in terms of the integer total. */
  lemma EstimateFromTenths(i: Inputs)
    ensures !i.recyclesWaste ==>
              EstimateFootprint(i) == Estimate(TruncateDiv(TotalTenths(i), 10), TruncateDiv(TotalTenths(i), 200))
    ensures i.recyclesWaste ==>
              EstimateFootprint(i) == Estimate(TruncateDiv(8 * TotalTenths(i), 100), TruncateDiv(8 * TotalTenths(i), 2000))
  {
  }

  /** For non-negative answers, recycling never raises the footprint or the tree count. */
  lemma RecyclingNeverIncreases(i: Inputs)
    requires NonNegative(i)
    ensures EstimateFootprint(i.(recyclesWaste := true)).carbonFootprint
            <= EstimateFootprint(i.(recyclesWaste := false)).carbonFootprint
    ensures EstimateFootprint(i.(recyclesWaste := true)).treesNeeded
            <= EstimateFootprint(i.(recyclesWaste := false)).treesNeeded
  {
    var t := TotalTenths(i);
    assert TotalTenths(i.(recyclesWaste := true)) == t == TotalTenths(i.(recyclesWaste := false));
    assert t >= 0;
    assert (8 * t) / 100 <= (10 * t) / 100 == t / 10;
    assert (8 * t) / 2000 <= (10 * t) / 2000 == t / 200;
  }

  /** The tree count is the truncated footprint divided by 20, truncated again. */
  lemma TreesFromFootprint(i: Inputs)
    ensures EstimateFootprint(i).treesNeeded == TruncateDiv(EstimateFootprint(i).carbonFootprint, Co2AbsorptionPerTree)
  {
  }

  /** Within the sliders' ranges every intermediate `Int` product and the total
      stay far inside 32 bits, so the exact model has no overflow to account for. */
  lemma NoOverflowWithinSliderRanges(i: Inputs)
    requires WithinSliderRanges(i)
    ensures 0 <= i.weeklyMeatMeals * MeatMealEmissions * 52 <= 0x7fff_ffff
    ensures 0 <= i.shortHaulFlightsPerYear * ShortHaulFlightEmissions
                 + i.longHaulFlightsPerYear * LongHaulFlightEmissions <= 0x7fff_ffff
    ensures 0 <= i.newClothingItemsPerMonth * ClothingItemEmissions * 12 <= 0x7fff_ffff
    ensures 0.0 <= ExactTotal(i) <= 81660.0
  {
    assert MeatMealEmissions == 5 && ShortHaulFlightEmissions == 300;
    assert LongHaulFlightEmissions == 1000 && ClothingItemEmissions == 50;
    assert i.weeklyMeatMeals * 5 * 52 <= 21 * 260;
    assert i.shortHaulFlightsPerYear * 300 <= 12000;
    assert i.longHaulFlightsPerYear * 1000 <= 20000;
    assert i.newClothingItemsPerMonth * 50 * 12 <= 18000;
  }

  // ----- the questionnaire screen's state

  /** The view-model: the answers, the last results shown and the current step. */
  datatype Questionnaire = Questionnaire(inputs: Inputs, carbonFootprint: int, treesNeeded: int, currentStep: int)

  /** The view-model together with the preferences store it reads and writes. */
  datatype Screen = Screen(vm: Questionnaire, store: Store)

  /** The keys the questionnaire persists. */
  const QuestionnaireKeys: set<Key> := {
    CarbonFootprintKey, TreesNeededKey, WeeklyKilometersDrivenKey, MonthlyElectricityUsageKey,
    WeeklyMeatMealsKey, ShortHaulFlightsPerYearKey, LongHaulFlightsPerYearKey,
    NewClothingItemsPerMonthKey, RecyclesWasteKey }

  /** The step the screen opens on: the results when both results are stored, else the first question. */
  function InitialStep(s: Store): (step: int)
    ensures step == FinalStep <==> GetInt(s, CarbonFootprintKey).Some? && GetInt(s, TreesNeededKey).Some?
    ensures step == FinalStep || step == FirstStep
  {
    if GetInt(s, CarbonFootprintKey).Some? && GetInt(s, TreesNeededKey).Some? then FinalStep else FirstStep
  }

  /** The stored answers, each defaulting to 0 (or `false`) when never saved. */
  function LoadInputs(s: Store): Inputs
  {
    Inputs(
      GetInt(s, WeeklyKilometersDrivenKey).GetOr(0),
      GetInt(s, MonthlyElectricityUsageKey).GetOr(0),
      GetInt(s, WeeklyMeatMealsKey).GetOr(0),
      GetInt(s, ShortHaulFlightsPerYearKey).GetOr(0),
      GetInt(s, LongHaulFlightsPerYearKey).GetOr(0),
      GetInt(s, NewClothingItemsPerMonthKey).GetOr(0),
      GetBool(s, RecyclesWasteKey).GetOr(false))
  }

  /** The view-model once its start-up loads have completed. */
  function Open(s: Store): (q: Questionnaire)
    ensures q.currentStep == InitialStep(s)
    ensures q.currentStep == FinalStep || q.currentStep == FirstStep
    ensures q.inputs == LoadInputs(s)
    ensures q.carbonFootprint == GetInt(s, CarbonFootprintKey).GetOr(0)
    ensures q.treesNeeded == GetInt(s, TreesNeededKey).GetOr(0)
    ensures s == Empty ==> q == Questionnaire(Inputs(0, 0, 0, 0, 0, 0, false), 0, 0, FirstStep)
  {
    Questionnaire(LoadInputs(s), GetInt(s, CarbonFootprintKey).GetOr(0),
                  GetInt(s, TreesNeededKey).GetOr(0), InitialStep(s))
  }

  /** The keys holding the answers. */
  const InputKeys: set<Key> := {
    WeeklyKilometersDrivenKey, MonthlyElectricityUsageKey, WeeklyMeatMealsKey,
    ShortHaulFlightsPerYearKey, LongHaulFlightsPerYearKey, NewClothingItemsPerMonthKey, RecyclesWasteKey }

  /** The store after saving answers `i`; the seven saves, one key each, are written as one update. */
  function SaveInputs(s: Store, i: Inputs): (r: Store)
    ensures LoadInputs(r) == i
    ensures SameExcept(s, r, InputKeys)
    ensures WellTyped(s) ==> WellTyped(r)
  {
    InputUpdatesLoad(s, i);
    InputUpdatesFrame(s, i);
    InputUpdatesWellTyped(s, i);
    InputUpdates(s, i)
  }

  function InputUpdates(s: Store, i: Inputs): Store
  {
    s[WeeklyKilometersDrivenKey := IntValue(i.weeklyKilometersDriven)]
     [MonthlyElectricityUsageKey := IntValue(i.monthlyElectricityUsage)]
     [WeeklyMeatMealsKey := IntValue(i.weeklyMeatMeals)]
     [ShortHaulFlightsPerYearKey := IntValue(i.shortHaulFlightsPerYear)]
     [LongHaulFlightsPerYearKey := IntValue(i.longHaulFlightsPerYear)]
     [NewClothingItemsPerMonthKey := IntValue(i.newClothingItemsPerMonth)]
     [RecyclesWasteKey := BoolValue(i.recyclesWaste)]
  }

  lemma InputUpdatesLoad(s: Store, i: Inputs)
    ensures LoadInputs(InputUpdates(s, i)) == i
  {
  }

  lemma InputUpdatesFrame(s: Store, i: Inputs)
    ensures SameExcept(s, InputUpdates(s, i), InputKeys)
  {
  }

  lemma InputUpdatesWellTyped(s: Store, i: Inputs)
    ensures WellTyped(s) ==> WellTyped(InputUpdates(s, i))
  {
  }

  /** The store after saving results `e` and then answers `i`. */
  function SaveQuestionnaireResults(s: Store, e: Estimate, i: Inputs): (r: Store)
    ensures GetInt(r, CarbonFootprintKey) == Some(e.carbonFootprint)
    ensures GetInt(r, TreesNeededKey) == Some(e.treesNeeded)
    ensures LoadInputs(r) == i
    ensures SameExcept(s, r, QuestionnaireKeys)
    ensures WellTyped(s) ==> WellTyped(r)
  {
    var s1 := SaveInt(s, CarbonFootprintKey, e.carbonFootprint);
    var s2 := SaveInt(s1, TreesNeededKey, e.treesNeeded);
    var r := SaveInputs(s2, i);
    SameExceptTrans(s, s1, s2, {CarbonFootprintKey}, {TreesNeededKey});
    SameExceptTrans(s, s2, r, {CarbonFootprintKey, TreesNeededKey}, InputKeys);
    assert {CarbonFootprintKey, TreesNeededKey} + InputKeys == QuestionnaireKeys;
    r
  }

  /** Runs the estimate on the current answers, shows it and persists it with the answers. */
  function Calculate(q: Questionnaire, s: Store): (r: Screen)
    ensures r.vm.inputs == q.inputs && r.vm.currentStep == q.currentStep
    ensures r.vm.carbonFootprint == TruncateReal(ExactTotal(q.inputs))
    ensures r.vm.treesNeeded == TruncateReal(ExactTotal(q.inputs) / Co2AbsorptionPerTree as real)
    ensures GetInt(r.store, CarbonFootprintKey) == Some(r.vm.carbonFootprint)
    ensures GetInt(r.store, TreesNeededKey) == Some(r.vm.treesNeeded)
    ensures LoadInputs(r.store) == r.vm.inputs
    ensures SameExcept(s, r.store, QuestionnaireKeys)
    ensures WellTyped(s) ==> WellTyped(r.store)
  {
    var e := EstimateFootprint(q.inputs);
    Screen(q.(carbonFootprint := e.carbonFootprint, treesNeeded := e.treesNeeded),
           SaveQuestionnaireResults(s, e, q.inputs))
  }

  /** Advances one step while below the last, and (re)computes whenever the step is then the last. */
  function NextStep(q: Questionnaire, s: Store): (r: Screen)
    ensures q.currentStep <= FinalStep ==> r.vm.currentStep <= FinalStep
    ensures FirstStep <= q.currentStep <= FinalStep ==> FirstStep <= r.vm.currentStep <= FinalStep
    ensures q.currentStep < FinalStep ==> r.vm.currentStep == q.currentStep + 1
    ensures q.currentStep >= FinalStep ==> r.vm.currentStep == q.currentStep
    ensures r.vm.inputs == q.inputs
    ensures r.vm.currentStep == FinalStep ==> r == Calculate(q.(currentStep := FinalStep), s)
    ensures r.vm.currentStep != FinalStep ==> r.store == s && r.vm.carbonFootprint == q.carbonFootprint
                                              && r.vm.treesNeeded == q.treesNeeded
  {
    var stepped := if q.currentStep < FinalStep then q.(currentStep := q.currentStep + 1) else q;
    if stepped.currentStep == FinalStep then Calculate(stepped, s) else Screen(stepped, s)
  }

  /** Goes back one step while above the first; nothing else changes. */
  function PreviousStep(q: Questionnaire): (r: Questionnaire)
    ensures FirstStep <= q.currentStep <= FinalStep ==> FirstStep <= r.currentStep <= FinalStep
    ensures q.currentStep > FirstStep ==> r.currentStep == q.currentStep - 1
    ensures q.currentStep <= FirstStep ==> r == q
    ensures r.(currentStep := q.currentStep) == q
  {
    if q.currentStep > FirstStep then q.(currentStep := q.currentStep - 1) else q
  }

  /** Reopening the questionnaire after a calculation shows exactly what was
      on screen: the same answers, the same results, on the results step. */
  lemma ReopenAfterCalculation(q: Questionnaire, s: Store)
    requires NextStep(q, s).vm.currentStep == FinalStep
    ensures Open(NextStep(q, s).store) == NextStep(q, s).vm
  {
  }

  /** Calling NextStep on the results step stays there and recomputes the same results. */
  lemma NextStepAtLastRecomputes(q: Questionnaire, s: Store)
    requires q.currentStep == FinalStep
    ensures NextStep(q, s).vm.currentStep == FinalStep
    ensures NextStep(q, s).vm.carbonFootprint == EstimateFootprint(q.inputs).carbonFootprint
    ensures NextStep(NextStep(q, s).vm, NextStep(q, s).store).vm == NextStep(q, s).vm
  {
  }

  /** Saving a questionnaire result keeps the repository's ledger invariant:
      the questionnaire's keys are not among those the invariant reads. */
  lemma CalculateKeepsLedgerInvariant(q: Questionnaire, s: Store)
    requires MockNetwork.LedgerInvariant(s)
    ensures MockNetwork.LedgerInvariant(Calculate(q, s).store)
  {
    assert WalletBalanceKey !in QuestionnaireKeys && BoughtTreesKey !in QuestionnaireKeys;
    MockNetwork.FrameKeepsInvariant(s, Calculate(q, s).store, QuestionnaireKeys);
  }
}

=== FILE: data_store.dfy ===
/** The app's preferences store, modelled as a map from preference keys to
    values. Every key has one declared value kind, as the typed preference keys
    of the store do; the two tree lists are kept as the lists themselves, which
    stands for their JSON encoding round-tripping. Each save is one atomic edit. */
module DataStore {
  import opened Wrappers
  import opened TreeModel

  datatype Key =
    | CarbonFootprintKey
    | TreesNeededKey
    | WeeklyKilometersDrivenKey
    | MonthlyElectricityUsageKey
    | WeeklyMeatMealsKey
    | ShortHaulFlightsPerYearKey
    | LongHaulFlightsPerYearKey
    | NewClothingItemsPerMonthKey
    | RecyclesWasteKey
    | SessionKey
    | UserIdKey
    | WalletBalanceKey
    | BoughtTreesKey
    | StoreTreesKey

  datatype Kind = IntKind | BoolKind | StringKind | DoubleKind | BoughtListKind | StoreListKind

  datatype Value =
    | IntValue(i: int)
    | BoolValue(b: bool)
    | StringValue(s: string)
    | DoubleValue(d: real)
    | BoughtTreesValue(bought: seq<BoughtTree>)
    | StoreTreesValue(offers: seq<StoreTree>)

  type Store = map<Key, Value>

  /** The store of a fresh installation. */
  const Empty: Store := map[]

  /** The balance read when none has ever been saved. */
  const DefaultWalletBalance: real := 1000.0

  function KindOf(k: Key): Kind
  {
    match k
    case RecyclesWasteKey => BoolKind
    case SessionKey | UserIdKey => StringKind
    case WalletBalanceKey => DoubleKind
    case BoughtTreesKey => BoughtListKind
    case StoreTreesKey => StoreListKind
    case _ => IntKind
  }

  function ValueKind(v: Value): Kind
  {
    match v
    case IntValue(_) => IntKind
    case BoolValue(_) => BoolKind
    case StringValue(_) => StringKind
    case DoubleValue(_) => DoubleKind
    case BoughtTreesValue(_) => BoughtListKind
    case StoreTreesValue(_) => StoreListKind
  }

  /** Every stored value has the kind its key declares. */
  ghost predicate WellTyped(s: Store)
  {
    forall k :: k in s ==> ValueKind(s[k]) == KindOf(k)
  }

  /** The value stored under `k`, if any. */
  function Lookup(s: Store, k: Key): (v: Option<Value>)
    ensures v.Some? <==> k in s
    ensures v.Some? ==> v.value == s[k]
  {
    if k in s then Some(s[k]) else None
  }

  /** `s` and `t` agree on every key outside `ks`. */
  ghost predicate SameExcept(s: Store, t: Store, ks: set<Key>)
  {
    forall k :: k !in ks ==> Lookup(s, k) == Lookup(t, k)
  }

  lemma SameExceptTrans(s: Store, t: Store, u: Store, ks: set<Key>, ks': set<Key>)
    requires SameExcept(s, t, ks) && SameExcept(t, u, ks')
    ensures SameExcept(s, u, ks + ks')
  {
  }

  // ----- typed reads: a key that is absent (or, unreachably, holds another kind) reads as null

  function GetInt(s: Store, k: Key): (r: Option<int>)
    requires KindOf(k) == IntKind
    ensures k !in s ==> r == None
    ensures WellTyped(s) && k in s ==> r == Some(s[k].i)
  {
    match Lookup(s, k)
    case Some(IntValue(v)) => Some(v)
    case _ => None
  }

  function GetBool(s: Store, k: Key): (r: Option<bool>)
    requires KindOf(k) == BoolKind
    ensures k !in s ==> r == None
    ensures WellTyped(s) && k in s ==> r == Some(s[k].b)
  {
    match Lookup(s, k)
    case Some(BoolValue(v)) => Some(v)
    case _ => None
  }

  function GetString(s: Store, k: Key): (r: Option<string>)
    requires KindOf(k) == StringKind
    ensures k !in s ==> r == None
    ensures WellTyped(s) && k in s ==> r == Some(s[k].s)
  {
    match Lookup(s, k)
    case Some(StringValue(v)) => Some(v)
    case _ => None
  }

  /** The wallet balance, 1000.0 when none was ever saved. */
  function GetWalletBalance(s: Store): (b: real)
    ensures WalletBalanceKey !in s ==> b == DefaultWalletBalance
    ensures WellTyped(s) && WalletBalanceKey in s ==> b == s[WalletBalanceKey].d
  {
    match Lookup(s, WalletBalanceKey)
    case Some(DoubleValue(v)) => v
    case _ => DefaultWalletBalance
  }

  /** The owned trees, the empty list when none were ever saved. */
  function GetBoughtTrees(s: Store): (ts: seq<BoughtTree>)
    ensures BoughtTreesKey !in s ==> ts == []
    ensures WellTyped(s) && BoughtTreesKey in s ==> ts == s[BoughtTreesKey].bought
  {
    match Lookup(s, BoughtTreesKey)
    case Some(BoughtTreesValue(v)) => v
    case _ => []
  }

  /** The store offers, the empty list when none were ever saved. */
  function GetStoreTrees(s: Store): (ts: seq<StoreTree>)
    ensures StoreTreesKey !in s ==> ts == []
    ensures WellTyped(s) && StoreTreesKey in s ==> ts == s[StoreTreesKey].offers
  {
    match Lookup(s, StoreTreesKey)
    case Some(StoreTreesValue(v)) => v
    case _ => []
  }

  /** The stored user id, or `freshId` (a new random UUID) when none is stored.
      Reading never writes: the fresh id is not persisted. */
  function GetUserId(s: Store, freshId: string): (id: string)
    ensures UserIdKey !in s ==> id == freshId
    ensures WellTyped(s) && UserIdKey in s ==> id == s[UserIdKey].s
  {
    GetString(s, UserIdKey).GetOr(freshId)
  }

  // ----- writes: each touches its own key only and reads back what it wrote

  function SaveInt(s: Store, k: Key, v: int): (r: Store)
    requires KindOf(k) == IntKind
    ensures GetInt(r, k) == Some(v)
    ensures SameExcept(s, r, {k})
    ensures WellTyped(s) ==> WellTyped(r)
  {
    s[k := IntValue(v)]
  }

  function SaveBool(s: Store, k: Key, v: bool): (r: Store)
    requires KindOf(k) == BoolKind
    ensures GetBool(r, k) == Some(v)
    ensures SameExcept(s, r, {k})
    ensures WellTyped(s) ==> WellTyped(r)
  {
    s[k := BoolValue(v)]
  }

  function SaveString(s: Store, k: Key, v: string): (r: Store)
    requires KindOf(k) == StringKind
    ensures GetString(r, k) == Some(v)
    ensures SameExcept(s, r, {k})
    ensures WellTyped(s) ==> WellTyped(r)
  {
    s[k := StringValue(v)]
  }

  function SaveWalletBalance(s: Store, balance: real): (r: Store)
    ensures GetWalletBalance(r) == balance
    ensures SameExcept(s, r, {WalletBalanceKey})
    ensures WellTyped(s) ==> WellTyped(r)
  {
    s[WalletBalanceKey := DoubleValue(balance)]
  }

  function SaveBoughtTrees(s: Store, trees: seq<BoughtTree>): (r: Store)
    ensures GetBoughtTrees(r) == trees
    ensures SameExcept(s, r, {BoughtTreesKey})
    ensures WellTyped(s) ==> WellTyped(r)
  {
    s[BoughtTreesKey := BoughtTreesValue(trees)]
  }

  function SaveStoreTrees(s: Store, offers: seq<StoreTree>): (r: Store)
    ensures GetStoreTrees(r) == offers
    ensures SameExcept(s, r, {StoreTreesKey})
    ensures WellTyped(s) ==> WellTyped(r)
  {
    s[StoreTreesKey := StoreTreesValue(offers)]
  }

  // ----- reads are unaffected by writes to other keys

  lemma ReadsOutside(s: Store, t: Store, ks: set<Key>)
    requires SameExcept(s, t, ks)
    ensures WalletBalanceKey !in ks ==> GetWalletBalance(s) == GetWalletBalance(t)
    ensures BoughtTreesKey !in ks ==> GetBoughtTrees(s) == GetBoughtTrees(t)
    ensures StoreTreesKey !in ks ==> GetStoreTrees(s) == GetStoreTrees(t)
    ensures forall k :: k !in ks && KindOf(k) == IntKind ==> GetInt(s, k) == GetInt(t, k)
    ensures forall k :: k !in ks && KindOf(k) == BoolKind ==> GetBool(s, k) == GetBool(t, k)
    ensures forall k :: k !in ks && KindOf(k) == StringKind ==> GetString(s, k) == GetString(t, k)
  {
  }

  /** A fresh installation reads as all defaults. */
  lemma EmptyStoreDefaults(freshId: string)
    ensures WellTyped(Empty)
    ensures GetWalletBalance(Empty) == 1000.0
    ensures GetBoughtTrees(Empty) == [] && GetStoreTrees(Empty) == []
    ensures GetUserId(Empty, freshId) == freshId
    ensures forall k :: KindOf(k) == IntKind ==> GetInt(Empty, k) == None
    ensures GetBool(Empty, RecyclesWasteKey) == None
  {
  }
}

=== FILE: decimal.dfy ===
/** Decimal rendering of non-negative integers, as Kotlin's string templates
    (`"$n"`) print an `Int`: base ten, most significant digit first, no sign and
    no leading zeros. */
module Decimal {

  /** The character for one decimal digit. */
  function DigitChar(d: nat): (c: char)
    requires d < 10
    ensures '0' <= c <= '9'
  {
    "0123456789"[d]
  }

  /** The value of a decimal digit character. */
  function DigitValue(c: char): nat
  {
    if '0' <= c <= '9' then (c as int - '0' as int) else 0
  }

  /** `"$n"` for a non-negative `Int`. */
  function NatToString(n: nat): (s: string)
    decreases n
  {
    if n < 10 then [DigitChar(n)]
    else NatToString(n / 10) + [DigitChar(n % 10)]
  }

  /** Reads a string of digits back as a number (the inverse of NatToString). */
  function ParseDecimal(s: string): nat
  {
    if |s| == 0 then 0
    else ParseDecimal(s[..|s| - 1]) * 10 + DigitValue(s[|s| - 1])
  }

  lemma DigitRoundTrip(d: nat)
    requires d < 10
    ensures DigitValue(DigitChar(d)) == d
  {
  }

  /** Parsing a rendered number gives back the number. */
  lemma {:induction false} ParseNatToString(n: nat)
    ensures ParseDecimal(NatToString(n)) == n
    decreases n
  {
    var s := NatToString(n);
    if n < 10 {
      assert s[..0] == [];
      DigitRoundTrip(n);
    } else {
      var p := NatToString(n / 10);
      assert s[..|s| - 1] == p;
      assert s[|s| - 1] == DigitChar(n % 10);
      ParseNatToString(n / 10);
      DigitRoundTrip(n % 10);
    }
  }

  /** Distinct numbers render as distinct strings. */
  lemma NatToStringInjective(m: nat, n: nat)
    requires m != n
    ensures NatToString(m) != NatToString(n)
  {
    ParseNatToString(m);
    ParseNatToString(n);
  }

  /** A rendered number is never empty and starts with a digit. */
  lemma {:induction false} NatToStringLeadsWithDigit(n: nat)
    ensures |NatToString(n)| > 0 && '0' <= NatToString(n)[0] <= '9'
    decreases n
  {
    if n >= 10 {
      NatToStringLeadsWithDigit(n / 10);
      assert NatToString(n)[0] == NatToString(n / 10)[0];
    }
  }
}

=== FILE: impact_screen.dfy ===
/** Two pieces of logic from the "your impact" screen: which trees get a map
    marker, and the text describing a tree's age. */
module ImpactScreen {
  import opened Wrappers
  import opened Decimal
  import opened TreeModel
  import opened DataStore
  import MockNetwork
  import YourImpact

  // ----- map markers

  /** A tree can be placed on the map: both coordinates are known. */
  predicate HasCoordinates(t: Tree)
  {
    t.latitude.Some? && t.longitude.Some?
  }

  /** The trees that get a marker, in list order. */
  function Markers(trees: seq<Tree>): (r: seq<Tree>)
    ensures |r| <= |trees|
    ensures forall t :: t in r <==> t in trees && HasCoordinates(t)
  {
    if trees == [] then []
    else if HasCoordinates(trees[0]) then [trees[0]] + Markers(trees[1..])
    else Markers(trees[1..])
  }

  /** Filtering distributes over concatenation, so list order is kept. */
  lemma {:induction false} MarkersAppend(a: seq<Tree>, b: seq<Tree>)
    ensures Markers(a + b) == Markers(a) + Markers(b)
  {
    if a != [] {
      assert (a + b)[1..] == a[1..] + b;
      MarkersAppend(a[1..], b);
    } else {
      assert a + b == b;
    }
  }

  /** For any store in the ledger invariant, a loaded tree has coordinates
      exactly when it is planted, so the map shows exactly the planted trees. */
  lemma MapShowsExactlyPlanted(st: YourImpact.YourImpactState, s: Store)
    requires MockNetwork.LedgerInvariant(s)
    ensures var shown := YourImpact.LoadTrees(st, s).ui.trees;
            forall t :: t in Markers(shown) <==> t in shown && t.status == Planted
  {
    var shown := YourImpact.LoadTrees(st, s).ui.trees;
    var owned := GetBoughtTrees(s);
    forall t | t in shown
      ensures HasCoordinates(t) <==> t.status == Planted
    {
      var i :| 0 <= i < |shown| && shown[i] == t;
      assert MockNetwork.Located(owned[i]);
    }
  }

  // ----- tree age

  /** A calendar year and month (months 0..11, as the platform calendar numbers them). */
  datatype YearMonth = YearMonth(year: int, month: int)

  predicate ValidMonth(d: YearMonth)
  {
    0 <= d.month < 12
  }

  /** An age as the screen phrases it. */
  datatype Age = LessThanAMonth | Elapsed(years: nat, months: nat)

  function TotalMonths(a: Age): nat
  {
    match a
    case LessThanAMonth => 0
    case Elapsed(y, m) => 12 * y + m
  }

  const UnknownAge: string := "Unknown age"
  const LessThanAMonthText: string := "Less than a month"

  /** The text for an age: years first, months added only when positive. */
  function Render(a: Age): (r: string)
    ensures r != UnknownAge
  {
    match a
    case LessThanAMonth => LessThanAMonthText
    case Elapsed(y, m) =>
      if y > 0 then
        NatToStringLeadsWithDigit(y);
        var text := NatToString(y) + " years" + (if m > 0 then " and " + NatToString(m) + " months" else "");
        assert text[0] == NatToString(y)[0];
        text
      else if m > 0 then
        NatToStringLeadsWithDigit(m);
        var text := NatToString(m) + " months";
        assert text[0] == NatToString(m)[0];
        text
      else LessThanAMonthText
  }

  /** Whole months between the planting month and the current month. */
  function ElapsedMonths(planted: YearMonth, now: YearMonth): int
  {
    12 * (now.year - planted.year) + (now.month - planted.month)
  }

  /** The age as written in the legacy computation: the year difference and the
      month difference taken separately, each shown only when positive. */
  function LegacyAge(planted: YearMonth, now: YearMonth): (a: Age)
    ensures now.year - planted.year > 0 ==>
              a == Elapsed(now.year - planted.year,
                           if now.month - planted.month > 0 then now.month - planted.month else 0)
    ensures now.year - planted.year <= 0 && now.month - planted.month > 0 ==>
              a == Elapsed(0, now.month - planted.month)
    ensures a.LessThanAMonth? <==> now.year - planted.year <= 0 && now.month - planted.month <= 0
  {
    var years := now.year - planted.year;
    var months := now.month - planted.month;
    if years > 0 then Elapsed(years, if months > 0 then months else 0)
    else if months > 0 then Elapsed(0, months)
    else LessThanAMonth
  }

  /** The text the screen shows for a planting date, as written: an absent or
      unreadable date gives "Unknown age". `parse` is the platform date parser
      for the pattern yyyy-MM-dd; `now` is the current month. */
  function TreeAgeLegacy(plantedDate: Option<string>, parse: string -> Option<YearMonth>, now: YearMonth): (r: string)
    ensures r == UnknownAge <==> plantedDate.None? || parse(plantedDate.value).None?
    ensures r != UnknownAge ==> r == Render(LegacyAge(parse(plantedDate.value).value, now))
  {
    match plantedDate
    case None => UnknownAge
    case Some(d) =>
      match parse(d)
      case None => UnknownAge
      case Some(planted) => Render(LegacyAge(planted, now))
  }

  /** The age as whole years and the remaining months since planting. */
  function CorrectedAge(planted: YearMonth, now: YearMonth): (a: Age)
    ensures a.LessThanAMonth? <==> ElapsedMonths(planted, now) <= 0
    ensures a.Elapsed? ==> TotalMonths(a) == ElapsedMonths(planted, now) && a.months < 12
  {
    var e := ElapsedMonths(planted, now);
    if e <= 0 then LessThanAMonth else Elapsed(e / 12, e % 12)
  }

  /** The age text with the years and months counted from the elapsed months. */
  function TreeAge(plantedDate: Option<string>, parse: string -> Option<YearMonth>, now: YearMonth): (r: string)
    ensures r == UnknownAge <==> plantedDate.None? || parse(plantedDate.value).None?
    ensures r != UnknownAge ==> r == Render(CorrectedAge(parse(plantedDate.value).value, now))
  {
    match plantedDate
    case None => UnknownAge
    case Some(d) =>
      match parse(d)
      case None => UnknownAge
      case Some(planted) => Render(CorrectedAge(planted, now))
  }

  /** For a planting month not after the current one, the legacy computation
      is right exactly when the current month is not earlier in the year than
      the planting month of an earlier year; then it shows a whole year too
      many and drops the months. */
  lemma LegacyAgeAgreesUnlessMonthWraps(planted: YearMonth, now: YearMonth)
    requires ValidMonth(planted) && ValidMonth(now)
    requires ElapsedMonths(planted, now) >= 0
    ensures LegacyAge(planted, now) == CorrectedAge(planted, now) <==>
              !(now.year > planted.year && now.month < planted.month)
  {
    var y := now.year - planted.year;
    var dm := now.month - planted.month;
    var e := ElapsedMonths(planted, now);
    if y > 0 && dm >= 0 {
      DivideByTwelve(e, y, dm);
    } else if y > 0 {
      DivideByTwelve(e, y - 1, dm + 12);
      assert CorrectedAge(planted, now).years == y - 1;
    } else if y == 0 && dm > 0 {
      DivideByTwelve(e, 0, dm);
    }
  }

  lemma DivideByTwelve(e: int, q: int, r: int)
    requires e == 12 * q + r && 0 <= r < 12
    ensures e / 12 == q && e % 12 == r
  {
  }

  /** A tree planted in December and viewed in January is shown as "1 years"
      old, although one month has passed. */
  lemma LegacyTurnOfYear(parse: string -> Option<YearMonth>)
    requires parse("2023-12-15") == Some(YearMonth(2023, 11))
    ensures TreeAgeLegacy(Some("2023-12-15"), parse, YearMonth(2024, 0)) == "1 years"
    ensures TreeAge(Some("2023-12-15"), parse, YearMonth(2024, 0)) == "1 months"
  {
    assert NatToString(1) == "1";
  }
}

=== FILE: mock_network.dfy ===
/** The local (mock) backend: a wallet, a catalogue of five tree offers and an
    append-only list of owned trees, all kept in the preferences store. Each
    operation is one atomic step from a store to a reply and a new store.
    Random choices (prices, planted or not, tree type, date, coordinate offset)
    and fresh UUIDs are parameters. */
module MockNetwork {
  import opened Wrappers
  import opened Decimal
  import opened TreeModel
  import opened DataStore

  /** The purchasable tree types, in declaration order. */
  datatype TreeType = Oak | Pine | Maple | Fir | Willow {

    /** The enum constant's name. */
    function Name(): string
    {
      match this
      case Oak => "OAK"
      case Pine => "PINE"
      case Maple => "MAPLE"
      case Fir => "FIR"
      case Willow => "WILLOW"
    }

    function StoreUrl(): string
    {
      match this
      case Oak => OakStoreUrl
      case Pine => PineStoreUrl
      case Maple => MapleStoreUrl
      case Fir => FirStoreUrl
      case Willow => WillowStoreUrl
    }

    function PlantedUrl(): string
    {
      match this
      case Oak => OakPlantedUrl
      case Pine => PinePlantedUrl
      case Maple => MaplePlantedUrl
      case Fir => FirPlantedUrl
      case Willow => WillowPlantedUrl
    }

    /** Kilograms of CO2 the type absorbs per year, as its description states. */
    function AbsorbedKgPerYear(): nat
    {
      match this
      case Oak => 10
      case Pine => 8
      case Maple => 6
      case Fir => 7
      case Willow => 5
    }

    function Description(): string
    {
      DescriptionPrefix + NatToString(AbsorbedKgPerYear()) + DescriptionSuffix
    }
  }

  // The catalogue's image links and descriptions.
  const OakStoreUrl: string := "https://rassadacvetov.com/wp-content/uploads/2024/06/dub-chereshchatyj-kompakta-compacta--scaled.jpg"
  const PineStoreUrl: string := "https://luxgarden.md/wp-content/uploads/2024/08/pin-negru-650-scaled.jpg"
  const MapleStoreUrl: string := "https://bahorgullari.uz/image/cache/catalog/%202023/Vibranced%20photos%20new/01000099-700x700.jpg"
  const FirStoreUrl: string := "https://www.pervocvet-shop.ru/img/work/nomencl/27178-m.jpg"
  const WillowStoreUrl: string := "https://s.alicdn.com/@sc04/kf/HTB1TI8taHH1gK0jSZFwq6A7aXXaU.jpg"
  const OakPlantedUrl: string := "https://s0.geograph.org.uk/geophotos/05/39/26/5392672_7c73798e.jpg"
  const PinePlantedUrl: string := "https://www.nationalarboretum.act.gov.au/__data/assets/image/0020/1512533/Young-stone-pine-in-Forest-56-2.jpg"
  const MaplePlantedUrl: string := "https://kostka.by/wp-content/uploads/2024/06/dub-krasnyj.jpg"
  const FirPlantedUrl: string := "https://images.prom.ua/2974647960_w600_h600_2974647960.jpg"
  const WillowPlantedUrl: string := "https://krasnodar.pitomnik-rastenij.ru/image/data/parser3/iva-plakuchaya-pamyati-mindovskogo.jpg"

  /** Every description reads "Absorbs approximately <kg> kg of CO₂ per year". */
  const DescriptionPrefix: string := "Absorbs approximately "
  const DescriptionSuffix: string := " kg of CO\U{2082} per year"

  /** `TreeType.entries`. */
  const Entries: seq<TreeType> := [Oak, Pine, Maple, Fir, Willow]

  /** A (longitude, latitude) pair. */
  datatype Point = Point(longitude: real, latitude: real)

  /** The three base points around which the seeded trees are planted. */
  const BaseCoordinates: seq<Point> := [
    Point(32.5681111, 34.8470833),
    Point(33.156175, 35.075562),
    Point(32.813894, 34.735973)
  ]

  const TreesPerBasePoint: nat := 20

  /** The session token the mock writes when none is stored. */
  const LocalSession: string := "local-session-123"

  /** The two ways a purchase fails. */
  datatype RepoError =
    | InvalidTreeType
    | InsufficientBalance(treeType: TreeType, balance: real, price: real)

  /** The exception message; `render` is Kotlin's rendering of a `Double`. */
  function Message(e: RepoError, render: real -> string): (r: string)
    ensures e.InvalidTreeType? <==> r == "Invalid tree type"
    ensures e.InsufficientBalance? ==>
              "You have insufficient balance to purchase a " + e.treeType.Name() + " tree. Current balance: " <= r
  {
    match e
    case InvalidTreeType => "Invalid tree type"
    case InsufficientBalance(t, b, p) =>
      "You have insufficient balance to purchase a " + t.Name() + " tree. Current balance: "
      + render(b) + ", Tree price: " + render(p)
  }

  /** What an operation returns, together with the store it leaves behind. */
  datatype Reply<T> = Reply(value: T, store: Store)

  /** The random outcome of generating one seeded tree. */
  datatype TreeChoice = TreeChoice(isPlanted: bool, treeType: TreeType, plantedDate: string, offset: Point)

  /** Writes the local session token when no session is stored; every other key is left alone. */
  function EnsureSession(s: Store): (r: Store)
    ensures GetString(r, SessionKey).Some?
    ensures GetString(s, SessionKey).Some? ==> r == s
    ensures GetString(s, SessionKey).None? ==> GetString(r, SessionKey) == Some(LocalSession)
    ensures SameExcept(s, r, {SessionKey})
    ensures WellTyped(s) ==> WellTyped(r)
  {
    if GetString(s, SessionKey).Some? then s else SaveString(s, SessionKey, LocalSession)
  }

  /** The price of the first offer whose type is `name`, as `find { … }?.price` does. */
  function FindPrice(offers: seq<StoreTree>, name: string): (r: Option<real>)
    ensures r.None? <==> forall i :: 0 <= i < |offers| ==> offers[i].treeType != name
    ensures r.Some? ==> exists i :: 0 <= i < |offers| && offers[i].treeType == name && offers[i].price == r.value
                                    && forall j :: 0 <= j < i ==> offers[j].treeType != name
  {
    if |offers| == 0 then None
    else if offers[0].treeType == name then Some(offers[0].price)
    else
      var r := FindPrice(offers[1..], name);
      assert forall i :: 1 <= i < |offers| ==> offers[i] == offers[1..][i - 1];
      if r.Some? then
        var k :| 0 <= k < |offers[1..]| && offers[1..][k].treeType == name && offers[1..][k].price == r.value
                 && forall j :: 0 <= j < k ==> offers[1..][j].treeType != name;
        assert offers[k + 1] == offers[1..][k];
        r
      else r
  }

  /** The price the stored catalogue asks for `t`. */
  function PriceOf(s: Store, t: TreeType): Option<real>
  {
    FindPrice(GetStoreTrees(s), t.Name())
  }

  /** The record a purchase appends: the next id, not yet planted, no date, no location. */
  function PurchasedTree(id: nat, t: TreeType): BoughtTree
  {
    BoughtTree(NatToString(id), t.Name(), t.Description(), None, None, None,
               t.Name(), t.StoreUrl(), ReadyToBePlanted.Status())
  }

  /** Buys one tree of type `t`: looks up its price, checks the balance, debits
      it and appends a record with id `size + 1`, returning that id. */
  function BuyTree(s: Store, t: TreeType): (r: Reply<Result<string, RepoError>>)
    ensures PriceOf(s, t).None? ==> r.value == Failure(InvalidTreeType)
    ensures PriceOf(s, t).Some? && GetWalletBalance(s) < PriceOf(s, t).value ==>
              r.value == Failure(InsufficientBalance(t, GetWalletBalance(s), PriceOf(s, t).value))
    ensures r.value.Success? <==> PriceOf(s, t).Some? && GetWalletBalance(s) >= PriceOf(s, t).value
    ensures r.value.Failure? ==>
              && GetWalletBalance(r.store) == GetWalletBalance(s)
              && GetBoughtTrees(r.store) == GetBoughtTrees(s)
              && SameExcept(s, r.store, {SessionKey})
              && r.store == EnsureSession(s)
    ensures r.value.Success? ==>
              && GetWalletBalance(r.store) == GetWalletBalance(s) - PriceOf(s, t).value
              && GetWalletBalance(r.store) >= 0.0
              && GetBoughtTrees(r.store) == GetBoughtTrees(s) + [PurchasedTree(|GetBoughtTrees(s)| + 1, t)]
              && r.value.value == NatToString(|GetBoughtTrees(s)| + 1)
    ensures SameExcept(s, r.store, {SessionKey, WalletBalanceKey, BoughtTreesKey})
    ensures GetStoreTrees(r.store) == GetStoreTrees(s)
    ensures WellTyped(s) ==> WellTyped(r.store)
  {
    var x := PurchasedTree(|GetBoughtTrees(s)| + 1, t);
    PurchaseOutcome(s, t, x);
    PurchaseFailure(s, t, x);
    PurchaseSuccess(s, t, x);
    PurchaseFrame(s, t, x);
    PurchaseKeepsCatalogue(s, t, x);
    PurchaseWellTyped(s, t, x);
    Purchase(s, t, x)
  }

  /** The steps of a purchase that appends the record `x`; its properties are
      proved by the lemmas below, for any record. */
  function Purchase(s: Store, t: TreeType, x: BoughtTree): Reply<Result<string, RepoError>>
  {
    var s1 := EnsureSession(s);
    match FindPrice(GetStoreTrees(s1), t.Name())
    case None => Reply(Failure(InvalidTreeType), s1)
    case Some(price) =>
      var balance := GetWalletBalance(s1);
      if balance < price then
        Reply(Failure(InsufficientBalance(t, balance, price)), s1)
      else
        Reply(Success(x.id), DebitAndRecord(s1, price, x))
  }

  /** Saves the balance less `price`, then appends `x` to the owned trees. */
  function DebitAndRecord(s: Store, price: real, x: BoughtTree): (r: Store)
    ensures GetWalletBalance(r) == GetWalletBalance(s) - price
    ensures GetBoughtTrees(r) == GetBoughtTrees(s) + [x]
    ensures SameExcept(s, r, {WalletBalanceKey, BoughtTreesKey})
    ensures WellTyped(s) ==> WellTyped(r)
  {
    var s2 := SaveWalletBalance(s, GetWalletBalance(s) - price);
    ReadsOutside(s, s2, {WalletBalanceKey});
    var r := SaveBoughtTrees(s2, GetBoughtTrees(s2) + [x]);
    ReadsOutside(s2, r, {BoughtTreesKey});
    SameExceptTrans(s, s2, r, {WalletBalanceKey}, {BoughtTreesKey});
    r
  }

  /** Recording a session changes neither the catalogue nor the balance nor the owned trees. */
  lemma SessionKeepsReads(s: Store)
    ensures GetStoreTrees(EnsureSession(s)) == GetStoreTrees(s)
    ensures GetWalletBalance(EnsureSession(s)) == GetWalletBalance(s)
    ensures GetBoughtTrees(EnsureSession(s)) == GetBoughtTrees(s)
  {
    ReadsOutside(s, EnsureSession(s), {SessionKey});
  }

  lemma PurchaseOutcome(s: Store, t: TreeType, x: BoughtTree)
    ensures PriceOf(s, t).None? ==> Purchase(s, t, x).value == Failure(InvalidTreeType)
    ensures PriceOf(s, t).Some? && GetWalletBalance(s) < PriceOf(s, t).value ==>
              Purchase(s, t, x).value == Failure(InsufficientBalance(t, GetWalletBalance(s), PriceOf(s, t).value))
    ensures Purchase(s, t, x).value.Success? <==> PriceOf(s, t).Some? && GetWalletBalance(s) >= PriceOf(s, t).value
  {
    SessionKeepsReads(s);
  }

  lemma PurchaseFailure(s: Store, t: TreeType, x: BoughtTree)
    ensures Purchase(s, t, x).value.Failure? ==>
              && GetWalletBalance(Purchase(s, t, x).store) == GetWalletBalance(s)
              && GetBoughtTrees(Purchase(s, t, x).store) == GetBoughtTrees(s)
              && SameExcept(s, Purchase(s, t, x).store, {SessionKey})
              && Purchase(s, t, x).store == EnsureSession(s)
  {
    SessionKeepsReads(s);
  }

  lemma PurchaseSuccess(s: Store, t: TreeType, x: BoughtTree)
    ensures Purchase(s, t, x).value.Success? ==>
              && GetWalletBalance(Purchase(s, t, x).store) == GetWalletBalance(s) - PriceOf(s, t).value
              && GetWalletBalance(Purchase(s, t, x).store) >= 0.0
              && GetBoughtTrees(Purchase(s, t, x).store) == GetBoughtTrees(s) + [x]
              && Purchase(s, t, x).value.value == x.id
  {
    SessionKeepsReads(s);
  }

  lemma PurchaseFrame(s: Store, t: TreeType, x: BoughtTree)
    ensures SameExcept(s, Purchase(s, t, x).store, {SessionKey, WalletBalanceKey, BoughtTreesKey})
  {
    var s1 := EnsureSession(s);
    if Purchase(s, t, x).value.Success? {
      var price := FindPrice(GetStoreTrees(s1), t.Name()).value;
      SameExceptTrans(s, s1, DebitAndRecord(s1, price, x), {SessionKey}, {WalletBalanceKey, BoughtTreesKey});
    }
  }

  lemma PurchaseKeepsCatalogue(s: Store, t: TreeType, x: BoughtTree)
    ensures GetStoreTrees(Purchase(s, t, x).store) == GetStoreTrees(s)
  {
    PurchaseFrame(s, t, x);
    assert Lookup(Purchase(s, t, x).store, StoreTreesKey) == Lookup(s, StoreTreesKey);
  }

  lemma PurchaseWellTyped(s: Store, t: TreeType, x: BoughtTree)
    ensures WellTyped(s) ==> WellTyped(Purchase(s, t, x).store)
  {
  }

  /** Credits the wallet by `amount` (no sign check here) and returns the profile. */
  function AddMoneyToWallet(s: Store, amount: real, freshId: string): (r: Reply<UserProfile>)
    ensures GetWalletBalance(r.store) == GetWalletBalance(s) + amount
    ensures r.value.wallet == GetWalletBalance(r.store)
    ensures r.value.treesOwned == |GetBoughtTrees(r.store)|
    ensures GetBoughtTrees(r.store) == GetBoughtTrees(s)
    ensures r.value.userId == GetUserId(s, freshId)
    ensures r.store == SaveWalletBalance(EnsureSession(s), GetWalletBalance(s) + amount)
    ensures SameExcept(s, r.store, {SessionKey, WalletBalanceKey})
    ensures WellTyped(s) ==> WellTyped(r.store)
  {
    var s1 := EnsureSession(s);
    ReadsOutside(s, s1, {SessionKey});
    var updated := GetWalletBalance(s1) + amount;
    var s2 := SaveWalletBalance(s1, updated);
    ReadsOutside(s1, s2, {WalletBalanceKey});
    SameExceptTrans(s, s1, s2, {SessionKey}, {WalletBalanceKey});
    Reply(UserProfile(updated, GetUserId(s2, freshId), |GetBoughtTrees(s2)|), s2)
  }

  /** The profile: current balance, user id (a fresh one, not persisted, when
      none is stored) and the number of owned trees. */
  function GetUserProfile(s: Store, freshId: string): (r: Reply<UserProfile>)
    ensures r.value.wallet == GetWalletBalance(s)
    ensures r.value.treesOwned == |GetBoughtTrees(s)|
    ensures r.value.userId == GetUserId(s, freshId)
    ensures r.store == EnsureSession(s)
    ensures SameExcept(s, r.store, {SessionKey})
    ensures WellTyped(s) ==> WellTyped(r.store)
  {
    var s1 := EnsureSession(s);
    ReadsOutside(s, s1, {SessionKey});
    Reply(UserProfile(GetWalletBalance(s1), GetUserId(s1, freshId), |GetBoughtTrees(s1)|), s1)
  }

  function ListBoughtTrees(s: Store): (r: Reply<seq<BoughtTree>>)
    ensures r.value == GetBoughtTrees(s)
    ensures r.store == EnsureSession(s)
    ensures SameExcept(s, r.store, {SessionKey})
    ensures WellTyped(s) ==> WellTyped(r.store)
  {
    var s1 := EnsureSession(s);
    ReadsOutside(s, s1, {SessionKey});
    Reply(GetBoughtTrees(s1), s1)
  }

  function ListStoreTrees(s: Store): (r: Reply<seq<StoreTree>>)
    ensures r.value == GetStoreTrees(s)
    ensures r.store == EnsureSession(s)
    ensures SameExcept(s, r.store, {SessionKey})
    ensures WellTyped(s) ==> WellTyped(r.store)
  {
    var s1 := EnsureSession(s);
    ReadsOutside(s, s1, {SessionKey});
    Reply(GetStoreTrees(s1), s1)
  }

  // ----- seeding

  /** A tree is located exactly when it is planted: a planted tree has a date
      and both coordinates, any other tree has none of the three. */
  predicate Located(b: BoughtTree)
  {
    if b.status == Planted.Status() then
      b.plantedDate.Some? && b.longitude.Some? && b.latitude.Some?
    else
      b.plantedDate.None? && b.longitude.None? && b.latitude.None?
  }

  /** The ids are "1", "2", …, "n" in list order. */
  ghost predicate SequentialIds(trees: seq<BoughtTree>)
  {
    forall i :: 0 <= i < |trees| ==> trees[i].id == NatToString(i + 1)
  }

  /** One simulated historical purchase, numbered `time`, near base point `base`. */
  function GenerateBoughtTree(time: nat, base: Point, c: TreeChoice): (b: BoughtTree)
    ensures b.id == NatToString(time)
    ensures b.treeType == c.treeType.Name() && b.title == c.treeType.Name()
    ensures b.description == c.treeType.Description()
    ensures Located(b)
    ensures c.isPlanted ==>
              && b.status == Planted.Status()
              && b.plantedDate == Some(c.plantedDate)
              && b.longitude == Some(base.longitude + c.offset.longitude)
              && b.latitude == Some(base.latitude + c.offset.latitude)
              && b.photoUrl == c.treeType.PlantedUrl()
    ensures !c.isPlanted ==>
              && b.status == ReadyToBePlanted.Status()
              && b.photoUrl == c.treeType.StoreUrl()
  {
    var t := c.treeType;
    BoughtTree(
      NatToString(time), t.Name(), t.Description(),
      if c.isPlanted then Some(c.plantedDate) else None,
      if c.isPlanted then Some(base.longitude + c.offset.longitude) else None,
      if c.isPlanted then Some(base.latitude + c.offset.latitude) else None,
      t.Name(),
      if c.isPlanted then t.PlantedUrl() else t.StoreUrl(),
      if c.isPlanted then Planted.Status() else ReadyToBePlanted.Status())
  }

  /** Seeds the owned trees when the stored list is empty: twenty trees around
      each base point in turn, numbered 1 to 60; `choose(n)` is the random
      outcome for tree number n. A non-empty list is left as it is. */
  method InitializeBoughtTrees(s: Store, choose: nat -> TreeChoice) returns (r: Store)
    ensures GetBoughtTrees(s) != [] ==> r == s
    ensures GetBoughtTrees(s) == [] ==>
              && |GetBoughtTrees(r)| == |BaseCoordinates| * TreesPerBasePoint
              && (forall i :: 0 <= i < |GetBoughtTrees(r)| ==>
                    GetBoughtTrees(r)[i] == Seeded(i, choose))
              && SequentialIds(GetBoughtTrees(r))
              && (forall i :: 0 <= i < |GetBoughtTrees(r)| ==> Located(GetBoughtTrees(r)[i]))
              && SameExcept(s, r, {BoughtTreesKey})
    ensures WellTyped(s) ==> WellTyped(r)
    ensures LedgerInvariant(s) ==> LedgerInvariant(r)
    ensures GetBoughtTrees(s) == [] && WellTyped(s) && GetWalletBalance(s) >= 0.0 ==> LedgerInvariant(r)
  {
    if GetBoughtTrees(s) != [] {
      return s;
    }
    var trees := GenerateSeededTrees(choose);
    SeededTreesWellFormed(trees, choose);
    r := SaveBoughtTrees(s, trees);
  }

  /** The sixty simulated purchases: twenty around each base point in turn,
      numbered from 1 in generation order. */
  method GenerateSeededTrees(choose: nat -> TreeChoice) returns (trees: seq<BoughtTree>)
    ensures |trees| == |BaseCoordinates| * TreesPerBasePoint
    ensures forall i :: 0 <= i < |trees| ==> trees[i] == Seeded(i, choose)
  {
    trees := [];
    var b := 0;
    while b < |BaseCoordinates|
      invariant 0 <= b <= |BaseCoordinates|
      invariant |trees| == b * TreesPerBasePoint
      invariant forall i :: 0 <= i < |trees| ==> trees[i] == Seeded(i, choose)
    {
      trees := GenerateAroundBasePoint(b, trees, choose);
      b := b + 1;
    }
  }

  /** The twenty trees around base point `b`, appended to the `b * 20` generated before them. */
  method GenerateAroundBasePoint(b: nat, prefix: seq<BoughtTree>, choose: nat -> TreeChoice)
    returns (trees: seq<BoughtTree>)
    requires b < |BaseCoordinates| && |prefix| == b * TreesPerBasePoint
    requires forall i :: 0 <= i < |prefix| ==> prefix[i] == Seeded(i, choose)
    ensures |trees| == (b + 1) * TreesPerBasePoint
    ensures forall i :: 0 <= i < |trees| ==> trees[i] == Seeded(i, choose)
  {
    assert |BaseCoordinates| == 3 && TreesPerBasePoint == 20;
    trees := prefix;
    var count := |prefix| + 1;
    var j := 0;
    while j < TreesPerBasePoint
      invariant 0 <= j <= TreesPerBasePoint
      invariant count == b * TreesPerBasePoint + j + 1
      invariant |trees| == count - 1
      invariant forall i :: 0 <= i < |trees| ==> trees[i] == Seeded(i, choose)
    {
      trees := AppendGenerated(b, j, count, trees, choose);
      count := count + 1;
      j := j + 1;
    }
  }

  /** One step of the inner loop: tree `j` around base point `b`, numbered
      `20 * b + j + 1`, appended to the trees generated so far. */
  method AppendGenerated(b: nat, j: nat, count: nat, trees: seq<BoughtTree>, choose: nat -> TreeChoice)
    returns (r: seq<BoughtTree>)
    requires b < |BaseCoordinates| && j < TreesPerBasePoint && |trees| == b * TreesPerBasePoint + j
    requires count == |trees| + 1
    requires forall i :: 0 <= i < |trees| ==> trees[i] == Seeded(i, choose)
    ensures |r| == |trees| + 1
    ensures forall i :: 0 <= i < |r| ==> r[i] == Seeded(i, choose)
  {
    var f := (i: nat) requires i < |BaseCoordinates| * TreesPerBasePoint => Seeded(i, choose);
    GeneratedIsSeeded(b, j, choose);
    var next := GenerateBoughtTree(count, BaseCoordinates[b], choose(count));
    AppendPointwise(trees, next, f);
    r := trees + [next];
  }

  /** Appending the value for the next index keeps a list pointwise equal to `f`. */
  lemma AppendPointwise<T>(xs: seq<T>, x: T, f: nat --> T)
    requires forall i :: 0 <= i < |xs| ==> f.requires(i) && xs[i] == f(i)
    requires f.requires(|xs|) && x == f(|xs|)
    ensures forall i :: 0 <= i < |xs + [x]| ==> f.requires(i) && (xs + [x])[i] == f(i)
  {
    forall i | 0 <= i < |xs + [x]|
      ensures f.requires(i) && (xs + [x])[i] == f(i)
    {
      if i < |xs| {
        assert (xs + [x])[i] == xs[i];
      }
    }
  }

  /** The seeded list is numbered "1".."60" and every tree in it is located exactly when planted. */
  lemma SeededTreesWellFormed(trees: seq<BoughtTree>, choose: nat -> TreeChoice)
    requires |trees| <= |BaseCoordinates| * TreesPerBasePoint
    requires forall i :: 0 <= i < |trees| ==> trees[i] == Seeded(i, choose)
    ensures SequentialIds(trees)
    ensures forall i :: 0 <= i < |trees| ==> Located(trees[i])
  {
    forall i | 0 <= i < |trees|
      ensures trees[i].id == NatToString(i + 1) && Located(trees[i])
    {
      assert trees[i] == Seeded(i, choose);
    }
  }

  /** Seeded tree number `i + 1` (0-based position `i`), planted around base point `i / 20`. */
  function Seeded(i: nat, choose: nat -> TreeChoice): BoughtTree
    requires i < |BaseCoordinates| * TreesPerBasePoint
  {
    GenerateBoughtTree(i + 1, BaseCoordinates[i / TreesPerBasePoint], choose(i + 1))
  }

  /** Tree `j` around base point `b` is seeded tree number `20 * b + j + 1`. */
  lemma GeneratedIsSeeded(b: nat, j: nat, choose: nat -> TreeChoice)
    requires b < |BaseCoordinates| && j < TreesPerBasePoint
    ensures b * TreesPerBasePoint + j + 1 <= |BaseCoordinates| * TreesPerBasePoint
    ensures GenerateBoughtTree(b * TreesPerBasePoint + j + 1, BaseCoordinates[b],
                               choose(b * TreesPerBasePoint + j + 1))
            == Seeded(b * TreesPerBasePoint + j, choose)
  {
    BasePointIndex(b, j);
  }

  lemma BasePointIndex(b: nat, j: nat)
    requires b < |BaseCoordinates| && j < TreesPerBasePoint
    ensures (b * TreesPerBasePoint + j) / TreesPerBasePoint == b
    ensures b * TreesPerBasePoint + j + 1 <= |BaseCoordinates| * TreesPerBasePoint
  {
  }

  /** The offer for `t` at price `p`. */
  function Offer(t: TreeType, p: real): StoreTree
  {
    StoreTree(p, t.Name(), t.Description(), t.StoreUrl(), t.Name())
  }

  /** The catalogue written on first use: one offer per tree type of `types`,
      in order, at the randomly drawn `price(t)`. */
  function Offers(types: seq<TreeType>, price: TreeType -> real): (o: seq<StoreTree>)
    ensures |o| == |types|
    ensures forall i :: 0 <= i < |o| ==> o[i] == Offer(types[i], price(types[i]))
  {
    MapTypes(types, t => Offer(t, price(t)))
  }

  /** `f` applied to each type, in order. */
  function MapTypes<T>(types: seq<TreeType>, f: TreeType -> T): (o: seq<T>)
    ensures |o| == |types|
    ensures forall i :: 0 <= i < |o| ==> o[i] == f(types[i])
  {
    if |types| == 0 then []
    else
      var rest := MapTypes(types[1..], f);
      assert forall i :: 1 <= i < |types| ==> types[i] == types[1..][i - 1];
      [f(types[0])] + rest
  }

  /** Seeds the catalogue when the stored one is empty; otherwise changes nothing. */
  function InitializeStoreTrees(s: Store, price: TreeType -> real): (r: Store)
    ensures GetStoreTrees(s) != [] ==> r == s
    ensures GetStoreTrees(s) == [] ==>
              && GetStoreTrees(r) == Offers(Entries, price)
              && |GetStoreTrees(r)| == |Entries|
              && (forall t: TreeType :: PriceOf(r, t) == Some(price(t)))
              && SameExcept(s, r, {StoreTreesKey})
    ensures WellTyped(s) ==> WellTyped(r)
  {
    if GetStoreTrees(s) != [] then s
    else
      var r := SaveStoreTrees(s, Offers(Entries, price));
      OffersPriceEveryType(Entries, price);
      EntriesComplete();
      r
  }

  /** Every tree type of `types` finds its own price in the catalogue built from them. */
  lemma {:induction false} OffersPriceEveryType(types: seq<TreeType>, price: TreeType -> real)
    ensures forall t :: t in types ==> FindPrice(Offers(types, price), t.Name()) == Some(price(t))
  {
    if |types| > 0 {
      OffersPriceEveryType(types[1..], price);
      forall t | t in types
        ensures FindPrice(Offers(types, price), t.Name()) == Some(price(t))
      {
        if types[0] != t {
          NamesDiffer(types[0], t);
          assert t in types[1..];
        }
      }
    }
  }

  /** `Entries` lists every tree type. */
  lemma EntriesComplete()
    ensures forall t: TreeType :: t in Entries
  {
    forall t: TreeType
      ensures t in Entries
    {
      match t
      case Oak => assert Entries[0] == t;
      case Pine => assert Entries[1] == t;
      case Maple => assert Entries[2] == t;
      case Fir => assert Entries[3] == t;
      case Willow => assert Entries[4] == t;
    }
  }

  /** Distinct tree types have distinct names. */
  lemma NamesDiffer(a: TreeType, b: TreeType)
    requires a != b
    ensures a.Name() != b.Name()
  {
    assert a.Name()[0] != b.Name()[0] || |a.Name()| != |b.Name()|;
  }

  /** The oak's description spelt out; the others differ only in the figure. */
  lemma OakDescriptionAsWritten()
    ensures Oak.Description() == "Absorbs approximately 10 kg of CO\U{2082} per year"
  {
    assert NatToString(10) == "10";
  }

  // ----- the ledger invariant

  /** What every reachable store satisfies: values of the declared kinds, a
      non-negative balance, owned trees numbered "1".."n", each located exactly
      when planted. */
  ghost predicate LedgerInvariant(s: Store)
  {
    && WellTyped(s)
    && GetWalletBalance(s) >= 0.0
    && SequentialIds(GetBoughtTrees(s))
    && forall i :: 0 <= i < |GetBoughtTrees(s)| ==> Located(GetBoughtTrees(s)[i])
  }

  /** A purchase keeps the invariant: the new record gets the next number and no location. */
  lemma BuyTreePreservesInvariant(s: Store, t: TreeType)
    requires LedgerInvariant(s)
    ensures LedgerInvariant(BuyTree(s, t).store)
  {
    var r := BuyTree(s, t);
    var owned := GetBoughtTrees(s);
    assert WellTyped(r.store);
    if r.value.Success? {
      var x := PurchasedTree(|owned| + 1, t);
      assert GetWalletBalance(r.store) >= 0.0;
      assert GetBoughtTrees(r.store) == owned + [x];
      PurchasedTreeIsNextAndUnlocated(|owned| + 1, t);
      AppendKeepsNumbering(owned, x);
    } else {
      assert GetWalletBalance(r.store) == GetWalletBalance(s);
      assert GetBoughtTrees(r.store) == owned;
    }
  }

  /** The purchase record carries number `n` and, not being planted, no location. */
  lemma PurchasedTreeIsNextAndUnlocated(n: nat, t: TreeType)
    ensures PurchasedTree(n, t).id == NatToString(n)
    ensures PurchasedTree(n, t).status != Planted.Status()
    ensures Located(PurchasedTree(n, t))
  {
    assert ReadyToBePlanted.Status()[0] != Planted.Status()[0];
  }

  /** Appending a located record numbered `|owned| + 1` keeps the numbering and the location rule. */
  lemma AppendKeepsNumbering(owned: seq<BoughtTree>, x: BoughtTree)
    requires SequentialIds(owned)
    requires forall i :: 0 <= i < |owned| ==> Located(owned[i])
    requires x.id == NatToString(|owned| + 1) && Located(x)
    ensures SequentialIds(owned + [x])
    ensures forall i :: 0 <= i < |owned + [x]| ==> Located((owned + [x])[i])
  {
    var after := owned + [x];
    forall i | 0 <= i < |after|
      ensures after[i].id == NatToString(i + 1) && Located(after[i])
    {
      if i < |owned| {
        assert after[i] == owned[i];
      }
    }
  }

  /** A deposit of a non-negative amount keeps the invariant. */
  lemma AddMoneyPreservesInvariant(s: Store, amount: real, freshId: string)
    requires LedgerInvariant(s) && amount >= 0.0
    ensures LedgerInvariant(AddMoneyToWallet(s, amount, freshId).store)
  {
  }

  /** Numbered trees have pairwise distinct ids. */
  lemma SequentialIdsAreUnique(trees: seq<BoughtTree>)
    requires SequentialIds(trees)
    ensures forall i, j :: 0 <= i < j < |trees| ==> trees[i].id != trees[j].id
  {
    forall i, j | 0 <= i < j < |trees|
      ensures trees[i].id != trees[j].id
    {
      NatToStringInjective(i + 1, j + 1);
    }
  }

  /** A fresh installation satisfies the invariant. */
  lemma EmptyStoreSatisfiesInvariant()
    ensures LedgerInvariant(Empty)
  {
  }

  /** Opening a session keeps the ledger invariant. */
  lemma EnsureSessionPreservesInvariant(s: Store)
    requires LedgerInvariant(s)
    ensures LedgerInvariant(EnsureSession(s))
  {
    FrameKeepsInvariant(s, EnsureSession(s), {SessionKey});
  }

  /** Seeding the catalogue keeps the ledger invariant: it writes no key the invariant reads. */
  lemma InitializeStoreTreesPreservesInvariant(s: Store, price: TreeType -> real)
    requires LedgerInvariant(s)
    ensures LedgerInvariant(InitializeStoreTrees(s, price))
  {
    FrameKeepsInvariant(s, InitializeStoreTrees(s, price), {StoreTreesKey});
  }

  /** A write that leaves the wallet and the bought trees alone, and keeps the store well typed,
      keeps the invariant. */
  lemma FrameKeepsInvariant(s: Store, t: Store, ks: set<Key>)
    requires LedgerInvariant(s) && WellTyped(t)
    requires SameExcept(s, t, ks) && WalletBalanceKey !in ks && BoughtTreesKey !in ks
    ensures LedgerInvariant(t)
  {
    ReadsOutside(s, t, ks);
  }

  /** Once the catalogue has been seeded, no purchase fails for an unknown type. */
  lemma SeededCatalogueKnowsEveryType(s: Store, price: TreeType -> real, t: TreeType)
    requires GetStoreTrees(s) == []
    ensures BuyTree(InitializeStoreTrees(s, price), t).value != Failure(InvalidTreeType)
  {
  }
}

=== FILE: plant_shop.dfy ===
/** The plant shop's view-model: lists the offers and buys a tree by type name,
    reporting the outcome as a one-line notification. */
module PlantShop {
  import opened Wrappers
  import opened Decimal
  import opened TreeModel
  import opened DataStore
  import opened MockNetwork

  datatype PlantShopState = PlantShopState(storeTrees: seq<StoreTree>, notification: Option<string>)

  const InitialState: PlantShopState := PlantShopState([], None)

  datatype Screen = Screen(ui: PlantShopState, store: Store)

  const SuccessPrefix: string := "Tree purchased successfully! Tree ID: "
  const ErrorPrefix: string := "Error: "
  /** The enum's qualified name, as the JVM's `valueOf` failure message shows it. */
  const TreeTypeClassName: string := "com.awesome.greencyprushackathon.network.TreeType"

  /** `TreeType.valueOf(name)`: the constant whose name is exactly `name`, if any. */
  function ValueOf(name: string): (r: Option<TreeType>)
    ensures r.Some? ==> r.value.Name() == name
    ensures r.None? ==> forall t: TreeType :: t.Name() != name
  {
    if name == Oak.Name() then Some(Oak)
    else if name == Pine.Name() then Some(Pine)
    else if name == Maple.Name() then Some(Maple)
    else if name == Fir.Name() then Some(Fir)
    else if name == Willow.Name() then Some(Willow)
    else None
  }

  /** Every constant is found under its own name. */
  lemma ValueOfName(t: TreeType)
    ensures ValueOf(t.Name()) == Some(t)
  {
    var r := ValueOf(t.Name());
    if r.value != t {
      NamesDiffer(r.value, t);
    }
  }

  /** The message of the exception `valueOf` throws for an unknown name. */
  function UnknownTypeMessage(name: string): (r: string)
    ensures "No enum constant " <= r
    ensures |name| < |r| && r[|r| - |name|..] == name
  {
    "No enum constant " + TreeTypeClassName + "." + name
  }

  /** Shows the repository's offers, exactly as returned. */
  function LoadStoreTrees(st: PlantShopState, s: Store): (r: Screen)
    ensures r.ui.storeTrees == GetStoreTrees(s)
    ensures r.ui.notification == st.notification
    ensures r.store == EnsureSession(s)
    ensures SameExcept(s, r.store, {SessionKey})
    ensures WellTyped(s) ==> WellTyped(r.store)
  {
    var reply := ListStoreTrees(s);
    Screen(st.(storeTrees := reply.value), reply.store)
  }

  /** The screen on creation: the offers loaded, no notification. */
  function Open(s: Store): (r: Screen)
    ensures r.ui.notification == None
    ensures r.ui.storeTrees == GetStoreTrees(s)
    ensures r.store == EnsureSession(s)
  {
    LoadStoreTrees(InitialState, s)
  }

  /** Buys a tree by type name. Success shows the new id; any failure (unknown
      name, type missing from the catalogue, insufficient balance) shows the
      error's message and leaves the wallet and the owned trees as they were.
      The offer list on screen is not refreshed. */
  function BuyTree(st: PlantShopState, s: Store, typeName: string, render: real -> string): (r: Screen)
    ensures r.ui.storeTrees == st.storeTrees
    ensures r.ui.notification.Some?
    ensures ValueOf(typeName).None? ==>
              r.store == s && r.ui.notification == Some(ErrorPrefix + UnknownTypeMessage(typeName))
    ensures ValueOf(typeName).Some? ==> r.store == MockNetwork.BuyTree(s, ValueOf(typeName).value).store
    ensures ValueOf(typeName).Some? && MockNetwork.BuyTree(s, ValueOf(typeName).value).value.Failure? ==>
              r.ui.notification == Some(ErrorPrefix + Message(MockNetwork.BuyTree(s, ValueOf(typeName).value).value.error, render))
    ensures Announced(r.ui.notification.value) <==> |GetBoughtTrees(r.store)| == |GetBoughtTrees(s)| + 1
    ensures Announced(r.ui.notification.value) ==>
              && r.ui.notification == Some(SuccessPrefix + NatToString(|GetBoughtTrees(s)| + 1))
              && GetWalletBalance(r.store) == GetWalletBalance(s) - PriceOf(s, ValueOf(typeName).value).value
    ensures !Announced(r.ui.notification.value) ==>
              && Reported(r.ui.notification.value)
              && GetWalletBalance(r.store) == GetWalletBalance(s)
              && GetBoughtTrees(r.store) == GetBoughtTrees(s)
    ensures WellTyped(s) ==> WellTyped(r.store)
  {
    match ValueOf(typeName)
    case None =>
      ErrorIsNotAnnounced(UnknownTypeMessage(typeName));
      Screen(st.(notification := Some(ErrorPrefix + UnknownTypeMessage(typeName))), s)
    case Some(t) =>
      var reply := MockNetwork.BuyTree(s, t);
      match reply.value
      case Success(id) =>
        SuccessIsAnnounced(id);
        Screen(st.(notification := Some(SuccessPrefix + id)), reply.store)
      case Failure(e) =>
        ErrorIsNotAnnounced(Message(e, render));
        Screen(st.(notification := Some(ErrorPrefix + Message(e, render))), reply.store)
  }

  /** The notification reports a completed purchase. */
  predicate Announced(n: string)
  {
    |SuccessPrefix| <= |n| && n[..|SuccessPrefix|] == SuccessPrefix
  }

  /** The notification reports an error. */
  predicate Reported(n: string)
  {
    |ErrorPrefix| <= |n| && n[..|ErrorPrefix|] == ErrorPrefix
  }

  lemma SuccessIsAnnounced(id: string)
    ensures Announced(SuccessPrefix + id) && !Reported(SuccessPrefix + id)
  {
    assert (SuccessPrefix + id)[..|SuccessPrefix|] == SuccessPrefix;
    assert SuccessPrefix[0] == 'T' && ErrorPrefix[0] == 'E';
    assert (SuccessPrefix + id)[0] == SuccessPrefix[0];
    assert (SuccessPrefix + id)[..|ErrorPrefix|][0] == (SuccessPrefix + id)[0];
  }

  lemma ErrorIsNotAnnounced(message: string)
    ensures Reported(ErrorPrefix + message) && !Announced(ErrorPrefix + message)
  {
    assert (ErrorPrefix + message)[..|ErrorPrefix|] == ErrorPrefix;
    if |SuccessPrefix| <= |ErrorPrefix + message| {
      assert (ErrorPrefix + message)[..|SuccessPrefix|][0] == 'E';
    }
  }

  /** Dismisses the notification; nothing else changes. */
  function ClearNotification(st: PlantShopState): (r: PlantShopState)
    ensures r.notification == None
    ensures r.storeTrees == st.storeTrees
  {
    st.(notification := None)
  }

  lemma ClearNotificationIdempotent(st: PlantShopState)
    ensures ClearNotification(ClearNotification(st)) == ClearNotification(st)
  {
  }
}

=== FILE: profile.dfy ===
/** The profile screen's view-model: shows the wallet, the trees bought and the
    trees needed, and lets the user deposit money. */
module Profile {
  import opened Wrappers
  import opened TreeModel
  import opened DataStore
  import MockNetwork

  datatype ProfileUiState = ProfileUiState(treesBought: int, treesNeeded: int, walletBalance: real)

  /** What the screen shows before anything is loaded. */
  const InitialState: ProfileUiState := ProfileUiState(0, 0, 0.0)

  datatype Screen = Screen(ui: ProfileUiState, store: Store)

  /** Loads the profile from the repository and the tree target from the store
      (0 when no questionnaire result is stored). */
  function LoadProfileData(st: ProfileUiState, s: Store, freshId: string): (r: Screen)
    ensures r.ui.treesBought == |GetBoughtTrees(s)|
    ensures r.ui.walletBalance == GetWalletBalance(s)
    ensures r.ui.treesNeeded == GetInt(s, TreesNeededKey).GetOr(0)
    ensures TreesNeededKey !in s ==> r.ui.treesNeeded == 0
    ensures r.store == MockNetwork.EnsureSession(s)
    ensures SameExcept(s, r.store, {SessionKey})
    ensures WellTyped(s) ==> WellTyped(r.store)
  {
    var reply := MockNetwork.GetUserProfile(s, freshId);
    ReadsOutside(s, reply.store, {SessionKey});
    var needed := GetInt(reply.store, TreesNeededKey).GetOr(0);
    Screen(st.(treesBought := reply.value.treesOwned, treesNeeded := needed,
               walletBalance := reply.value.wallet), reply.store)
  }

  /** Deposits `amount`: a non-positive amount is ignored outright; otherwise the
      wallet is credited and the screen shows the balance the repository returns. */
  function DepositMoney(st: ProfileUiState, s: Store, amount: real, freshId: string): (r: Screen)
    ensures amount <= 0.0 ==> r == Screen(st, s)
    ensures amount > 0.0 ==> r.ui.walletBalance == GetWalletBalance(s) + amount == GetWalletBalance(r.store)
    ensures amount > 0.0 ==> GetWalletBalance(r.store) > GetWalletBalance(s)
    ensures r.ui.treesBought == st.treesBought && r.ui.treesNeeded == st.treesNeeded
    ensures GetBoughtTrees(r.store) == GetBoughtTrees(s)
    ensures amount > 0.0 ==>
              r.store == SaveWalletBalance(MockNetwork.EnsureSession(s), GetWalletBalance(s) + amount)
    ensures SameExcept(s, r.store, {SessionKey, WalletBalanceKey})
    ensures WellTyped(s) ==> WellTyped(r.store)
  {
    if amount <= 0.0 then Screen(st, s)
    else
      var reply := MockNetwork.AddMoneyToWallet(s, amount, freshId);
      Screen(st.(walletBalance := reply.value.wallet), reply.store)
  }

  /** Because of the guard, no deposit from this screen can break the ledger
      invariant (in particular, the balance never becomes negative). */
  lemma DepositKeepsLedgerInvariant(st: ProfileUiState, s: Store, amount: real, freshId: string)
    requires MockNetwork.LedgerInvariant(s)
    ensures MockNetwork.LedgerInvariant(DepositMoney(st, s, amount, freshId).store)
  {
    if amount > 0.0 {
      MockNetwork.AddMoneyPreservesInvariant(s, amount, freshId);
    }
  }

  /** After a deposit, reloading the profile shows the balance the deposit showed. */
  lemma ReloadAfterDepositAgrees(st: ProfileUiState, s: Store, amount: real, freshId: string, freshId': string)
    requires amount > 0.0
    ensures var d := DepositMoney(st, s, amount, freshId);
            LoadProfileData(d.ui, d.store, freshId').ui.walletBalance == d.ui.walletBalance
  {
  }
}

=== FILE: tree_model.dfy ===
/** The records exchanged between the repository and the screens: the wire
    record of an owned tree, its screen-side counterpart, a store offer and the
    user profile. Kotlin `Double` coordinates and prices are modelled as reals. */
module TreeModel {
  import opened Wrappers

  /** The two lifecycle states of an owned tree, each with its wire string. */
  datatype TreeStatus = Planted | ReadyToBePlanted {
    function Status(): string
    {
      match this
      case Planted => "Planted"
      case ReadyToBePlanted => "Ready to be planted (Already bought)"
    }
  }

  /** An owned tree as stored and sent over the wire; `status` is a free string. */
  datatype BoughtTree = BoughtTree(
    id: string,
    title: string,
    description: string,
    plantedDate: Option<string>,
    longitude: Option<real>,
    latitude: Option<real>,
    treeType: string,
    photoUrl: string,
    status: string)

  /** An owned tree as the screens see it; the status is the enum. */
  datatype Tree = Tree(
    id: string,
    title: string,
    description: string,
    plantedDate: Option<string>,
    longitude: Option<real>,
    latitude: Option<real>,
    treeType: string,
    photoUrl: string,
    status: TreeStatus)

  /** One offer of the plant shop. */
  datatype StoreTree = StoreTree(
    price: real,
    title: string,
    description: string,
    photoUrl: string,
    treeType: string)

  datatype UserProfile = UserProfile(wallet: real, userId: string, treesOwned: int)

  /** Reads a wire status string: exactly "Planted" is planted, anything else
      (including an unknown string) is ready to be planted. */
  function StatusFromWire(s: string): (st: TreeStatus)
    ensures st == Planted <==> s == Planted.Status()
  {
    if Planted.Status() == s then Planted else ReadyToBePlanted
  }

  /** Converts the wire record to the screen model, field for field. */
  function MapToUiModel(b: BoughtTree): (t: Tree)
    ensures t.id == b.id && t.title == b.title && t.description == b.description
    ensures t.plantedDate == b.plantedDate
    ensures t.longitude == b.longitude && t.latitude == b.latitude
    ensures t.treeType == b.treeType && t.photoUrl == b.photoUrl
    ensures t.status == Planted <==> b.status == "Planted"
    ensures t.status == ReadyToBePlanted <==> b.status != "Planted"
  {
    Tree(b.id, b.title, b.description, b.plantedDate, b.longitude, b.latitude,
         b.treeType, b.photoUrl, StatusFromWire(b.status))
  }

  /** The two wire strings differ, so each status survives a trip through its string. */
  lemma StatusRoundTrip(x: TreeStatus, b: BoughtTree)
    requires b.status == x.Status()
    ensures MapToUiModel(b).status == x
  {
    if x == ReadyToBePlanted {
      assert x.Status()[0] != Planted.Status()[0];
    }
  }
}

=== FILE: wrappers.dfy ===
/** Option and Result: Kotlin's nullable types become Option, and the
    exceptions a repository call can throw become the Failure side of a Result. */
module Wrappers {

  /** A Kotlin `T?`: either absent (`null`) or present. */
  datatype Option<+T> = None | Some(value: T) {

    /** Kotlin's elvis operator `this ?: default`. */
    function GetOr(default: T): T {
      match this
      case Some(v) => v
      case None => default
    }
  }

  /** The outcome of a call that either returns a value or throws. */
  datatype Result<+R, +E> = Success(value: R) | Failure(error: E)
}

=== FILE: your_impact.dfy ===
/** The "your impact" view-model: the owned trees as the screen shows them, and
    whether the map or the list is displayed. */
module YourImpact {
  import opened TreeModel
  import opened DataStore
  import MockNetwork

  datatype YourImpactState = YourImpactState(trees: seq<Tree>, isMapMode: bool)

  /** No trees yet, map mode on. */
  const InitialState: YourImpactState := YourImpactState([], true)

  datatype Screen = Screen(ui: YourImpactState, store: Store)

  /** Replaces the shown trees by the repository's records, each converted to its
      screen form, in the same order. */
  function LoadTrees(st: YourImpactState, s: Store): (r: Screen)
    ensures |r.ui.trees| == |GetBoughtTrees(s)|
    ensures forall i :: 0 <= i < |r.ui.trees| ==> r.ui.trees[i] == MapToUiModel(GetBoughtTrees(s)[i])
    ensures r.ui.isMapMode == st.isMapMode
    ensures r.store == MockNetwork.EnsureSession(s)
    ensures SameExcept(s, r.store, {SessionKey})
    ensures WellTyped(s) ==> WellTyped(r.store)
  {
    var reply := MockNetwork.ListBoughtTrees(s);
    Screen(st.(trees := seq(|reply.value|, i requires 0 <= i < |reply.value| => MapToUiModel(reply.value[i]))),
           reply.store)
  }

  /** Switches between map and list; the trees stay. */
  function ToggleMode(st: YourImpactState): (r: YourImpactState)
    ensures r.isMapMode != st.isMapMode
    ensures r.trees == st.trees
  {
    st.(isMapMode := !st.isMapMode)
  }

  /** Selects map (`true`) or list (`false`); the trees stay. */
  function SetMapMode(st: YourImpactState, isMap: bool): (r: YourImpactState)
    ensures r.isMapMode == isMap
    ensures r.trees == st.trees
  {
    st.(isMapMode := isMap)
  }

  lemma ToggleTwiceRestores(st: YourImpactState)
    ensures ToggleMode(ToggleMode(st)) == st
  {
  }

  lemma SetMapModeIdempotent(st: YourImpactState, isMap: bool)
    ensures SetMapMode(SetMapMode(st, isMap), isMap) == SetMapMode(st, isMap)
  {
  }

  /** Toggling is selecting the other mode. */
  lemma ToggleIsSetToOther(st: YourImpactState)
    ensures ToggleMode(st) == SetMapMode(st, !st.isMapMode)
  {
  }
}
